=== FILE: README.md ===
# hudhook hook-state machine, in Dafny

hudhook injects an imgui overlay into a running game. It detours the
graphics API's frame-presentation entry points. This project models the state
machine those detours drive, for two backends:

- **DirectX 12** (`src/hooks/dx12.rs`). The hooked entry points are
  `IDXGISwapChain3::Present`, `ID3D12CommandQueue::ExecuteCommandLists` and
  `IDXGISwapChain3::ResizeBuffers`. The renderer's replacement window
  procedure, `unhook`, and the DXGI debug switch are modelled too.
  - The renderer is created on the first Present.
  - The first DIRECT command queue submitted after that is captured for the
    renderer's own submissions.
  - Each frame waits on the current back buffer's fence, resets the buffer's
    command allocator, records the overlay, submits it and signals a new
    value from one process-wide counter.
- **OpenGL** (`src/hooks/opengl3.rs`). The only hooked entry point is
  `wglSwapBuffers`, which draws (creating the renderer on first use), then
  resets, then calls the original. A reset tears the renderer down when the
  viewport size or the client rect's right or bottom edge changes.

Every detour is one atomic transition on an immutable state record. It
returns the next state and the calls it made, in order. The call to the
original function (the trampoline) is the last one, except that a DirectX 12
Present with debugging on drains the debug messages after it. Every D3D12, DXGI, Win32 and GL
object is an opaque handle. Whatever a foreign call returns is an input of the
transition:

- the back-buffer index;
- whether `render_draw_data` succeeded;
- the viewport;
- the client rect;
- whether `Mutex::try_lock` succeeded.

A `panic` in the source (an `unwrap` on a missing render loop, an
out-of-range index into the frame-context pool, a failed `GetClientRect` in
the OpenGL reset) becomes `Outcome.Panicked`.

The GPU is modelled only as far as fences matter. Each frame context's fence
holds a completed value and the values signalled but not yet reached. The
GPU's progress is an environment event, so proofs over runs cover every
interleaving of CPU calls and GPU progress.

Modules:

- `Base`: the option and outcome types.
- `Windowing`: the table of window procedures and the three-way dispatch
  shared by both backends.
- `FrameContexts`: fences, `incr`, `wait_fence` and the frame-context pool.
- `Dx12` and `Dx12Proofs`: the DirectX 12 transitions, then runs of them
  and their properties.
- `OpenGl3` and `OpenGl3Proofs`: the same for OpenGL.

## Model

| member | source | states |
|---|---|---|
| FrameContexts.Signal | src/hooks/dx12.rs:580 | Signalling appends the value after everything already pending on the fence; the completed value is untouched. |
| FrameContexts.AwaitValue | src/hooks/dx12.rs:193-200 | Waiting retires pending signals in order and stops once the completed value reaches the target; what remains pending is a suffix of what was pending, and a fence already at the target is not touched. |
| FrameContexts.AwaitValueStops | src/hooks/dx12.rs:193-200 | The wait ends at the first signal that reaches the target: the completed value is the last signal retired, every signal retired before it was below the target, and retiring nothing leaves the fence as it was. |
| FrameContexts.AllocatorNameIndex | src/hooks/dx12.rs:128-137 | The clamped index is always inside the 8-entry allocator-name table; it is the buffer index itself below 8 and the last entry from 8 on. |
| FrameContexts.FramePool | src/hooks/dx12.rs:382-411 | Renderer construction makes exactly BufferCount contexts. Context i is for back buffer i, has descriptor handle start + i·increment and the clamped allocator name, and starts with fence value 0 on a fresh fence. |
| FrameContexts.PoolHandlesDistinct | src/hooks/dx12.rs:384-386 | With a positive descriptor stride, later contexts get strictly larger render-target handles, so no two contexts share a descriptor. |
| FrameContexts.Incr | src/hooks/dx12.rs:188-191 | `incr` gives the context the counter's value before the increment and advances the counter by one; nothing else in the context changes. |
| FrameContexts.WaitFence | src/hooks/dx12.rs:193-200 | `wait_fence` waits exactly when the GPU's completed value is below the context's fence value. Only the fence changes, by retiring pending signals in order. |
| FrameContexts.IncrSequenceIncreasing | src/hooks/dx12.rs:188-191 | Successive `incr` calls on any contexts hand out counter, counter+1, …: distinct and strictly increasing values from one shared counter. |
| Windowing.SetWndProc | src/hooks/dx12.rs:429-433 | Swapping a window procedure installs the new one, returns the one that was there, and leaves every other window alone. |
| Windowing.SwapThenRestore | src/hooks/dx12.rs:592-601 | Putting back the procedure returned by a swap gives every window its old procedure again, and restores the table exactly when the window had an entry. |
| Windowing.DispatchMessage | src/hooks/dx12.rs:296-322 | The replacement window procedure goes to the default procedure when there is no renderer or its lock is busy. Otherwise it runs the handler with the saved procedure, or panics when the render loop is gone. Both directions hold. |
| Dx12.Installed | src/hooks/dx12.rs:756-757 | Right after installation only the render loop is set: no renderer, no captured queue, debugging off, the counter at its start value. |
| Dx12.Install | src/hooks/dx12.rs:756 | Installing stores the render loop and changes nothing else. |
| Dx12.ExecuteCommandLists | src/hooks/dx12.rs:203-238 | The original is always called with unchanged arguments. The guard gets set exactly when it was unset, the queue is DIRECT and a renderer exists; then only the renderer's queue changes. Otherwise nothing changes. |
| Dx12.NewRenderer | src/hooks/dx12.rs:341-462 | A new renderer has no queue and one fresh context per buffer. The output window's procedure is swapped for the backend's own and the previous one is saved; other windows keep theirs. |
| Dx12.StoreSwapChain | src/hooks/dx12.rs:464-470 | A given swap chain replaces the stored one. Without one, the renderer is unchanged. The stored chain is returned either way. |
| Dx12.Cleanup | src/hooks/dx12.rs:592-601 | As written, cleanup first stores the given swap chain, then puts the saved procedure back on that chain's output window. Without a chain it uses the stored one. Under the correction it uses the window that was hooked. No other window changes. |
| Dx12.SubmitCalls | src/hooks/dx12.rs:544-581 | The submission resets the allocator first, then moves the back buffer to render target, sets the render target to the context's descriptor and records the draw data. It ends with the closing barrier, the submission and the one Signal. A failed recording still reaches all three. Debug messages are drained only after a failure with debugging on. |
| Dx12.RecordFrame | src/hooks/dx12.rs:541-581 | The context used for a frame takes the counter's value as its fence value. Apart from that value and its fence, the context stays as it was. |
| Dx12.RecordFrameOrder | src/hooks/dx12.rs:541-581 | Order: any wait comes first, on the previous value. Exactly one allocator reset follows. The only Signal is the last call, of the new value, after the closing barrier and the submission. |
| Dx12.RecordFrameFence | src/hooks/dx12.rs:193-200 | After a frame the new value is the fence's last pending signal, behind a suffix of the signals pending before. Either the wait reached the previous value or nothing older is left. With no wait, the fence only gains the new signal. |
| Dx12.Render | src/hooks/dx12.rs:472-590 | Render completes exactly when the back-buffer index is inside the pool and either no queue is captured or the render loop exists. It panics on the pool index exactly when the back-buffer index is outside the pool, and on the missing render loop exactly when the index is in range, a queue is captured and the render loop is gone. It never initialises the render loop. Without a captured queue it returns having made no call and changed neither the counter nor any context. With a queue, only the indexed context changes and the counter advances by one. |
| Dx12.Present | src/hooks/dx12.rs:240-271 | A renderer is created only when none exists. The render loop is then initialised, as the first call and never again in that Present. The original is called with unchanged arguments, and its result is returned. Debug messages are drained after it when debugging is on. It panics in exactly three cases, and never for any other reason. With no renderer and no render loop the panic is on the render loop. On the pool index it panics when the back-buffer index is outside the pool it renders with: the existing one, or the new one of BufferCount contexts. It also panics on the render loop when an existing renderer with a captured queue meets a missing render loop. |
| Dx12.ResizeBuffers | src/hooks/dx12.rs:273-294 | Afterwards there is no renderer and no guard. An existing renderer's saved procedure goes back on the resized chain's window as written, or on the hooked window under the correction, and every other window keeps its procedure. The original is called with unchanged arguments and its result returned. The counter, debug flag and render loop stay. |
| Dx12.WndProcDispatch | src/hooks/dx12.rs:296-322 | No renderer or a busy lock goes to the default procedure; otherwise the handler chains to the renderer's saved procedure. |
| Dx12.Unhook | src/hooks/dx12.rs:782-809 | After unhook there is no renderer, guard, render loop or debugging, and the counter is unchanged. An existing renderer's saved procedure is back on its stored chain's window as written, or on the hooked window under the correction. Every other window keeps its procedure. |
| Dx12.EnableDebug | src/hooks/dx12.rs:694-697 | Only the debug flag changes, to on. |
| Dx12.DisableDebug | src/hooks/dx12.rs:700-703 | Only the debug flag changes, to off. |
| Dx12Proofs.GpuAdvance | src/hooks/dx12.rs:193-200 | The GPU's progress on context i retires that fence's oldest pending signal, or changes nothing when nothing is pending. Every other context, the rest of the renderer, the pool's length and the rest of the state stay the same. |
| Dx12Proofs.StepKeepsWellformed | src/hooks/dx12.rs:224-227 | Every transition keeps the invariant: guard set exactly when a renderer holding a queue exists, and a renderer only while the render loop exists. |
| Dx12Proofs.RunKeepsWellformed | src/hooks/dx12.rs:287-291 | The same invariant holds after any run of host calls, window messages, lifecycle and GPU events. |
| Dx12Proofs.RejectedQueueLeavesCaptureOpen | src/hooks/dx12.rs:214-233 | A non-DIRECT queue, or any queue before a renderer exists, leaves the guard unset, so a later DIRECT queue is still captured. |
| Dx12Proofs.OwnSubmitChangesNothing | src/hooks/dx12.rs:203-238 | `render`'s own submission on the captured queue (dx12.rs:579) re-enters the ExecuteCommandLists detour. On a well-formed state with a captured queue that re-entry leaves the state unchanged. |
| Dx12Proofs.CapturedQueueStable | src/hooks/dx12.rs:214-233 | Once captured, the queue stays the same through any run without ResizeBuffers or unhook, whatever queues are submitted. |
| Dx12Proofs.PresentThenResizeRestoresWindow | src/hooks/dx12.rs:287-293 | The procedure swapped in by the Present that builds a renderer is put back by ResizeBuffers on the same swap chain: the window table ends exactly as it began. |
| Dx12Proofs.StoreThenRead | src/hooks/dx12.rs:464-470 | A stored swap chain is what a later call without a chain returns. Storing the same chain again changes nothing. |
| Dx12Proofs.PresentHooks | src/hooks/dx12.rs:252-253 | A Present that builds a renderer swaps the output window's procedure for the backend's own and hooks that window, saving the previous procedure. No other window changes. A Present on an existing renderer keeps the window table, the saved procedure and the hooked window. |
| Dx12Proofs.StepKeepsHooked | src/hooks/dx12.rs:429-433 | Every event keeps the window invariant: the backend's procedure is installed on exactly the live renderer's hooked window, and the saved procedure is never the backend's own. This holds for the corrected cleanup always, and as written when every swap chain presents to one window. |
| Dx12Proofs.RunKeepsHooked | src/hooks/dx12.rs:592-601 | The window invariant holds after any run under the same conditions. |
| Dx12Proofs.HookedUnhook | src/hooks/dx12.rs:782-809 | Under the invariant, a message never goes to a handler chaining to the backend's own procedure, and unhook leaves no window calling it. |
| Dx12Proofs.InstalledNeverChainsToItself | src/hooks/dx12.rs:592-601 | Under the corrected cleanup, every run from installation never chains the handler to itself, and unhook then leaves no window calling the backend's procedure (the corrected half of the window finding). |
| Dx12Proofs.OneWindowNeverChainsToItself | src/hooks/dx12.rs:464-470 | As written, the same holds when every swap chain the host passes presents to one window. |
| Dx12Proofs.UnhookAfterOtherChainLeavesDetour | src/hooks/dx12.rs:782-809 | As written, Present on window 1's chain and then on window 2's chain retargets cleanup. Unhook then leaves window 1 calling the backend's procedure and gives window 2 window 1's old procedure. |
| Dx12Proofs.ResizeOnOtherChainChainsToItself | src/hooks/dx12.rs:273-294 | As written, Present on window 1's chain, ResizeBuffers on window 2's chain and Present on window 1's chain build a renderer that saved the backend's own procedure. Its handler chains to itself (the as-written half of the window finding). |
| Dx12Proofs.ResizeOnOtherChainRestoresHooked | src/hooks/dx12.rs:273-294 | Under the corrected cleanup the same run rebuilds a renderer that saves window 1's own procedure. |
| Dx12Proofs.WaitFreesSafeContext | src/hooks/dx12.rs:193-200 | On a context whose only outstanding signal is its own value, `wait_fence` returns with that value reached and nothing pending. |
| Dx12Proofs.RecordFrameOnSafeContext | src/hooks/dx12.rs:541-581 | On such a context the allocator reset finds the allocator idle, and the context is again safe against the advanced counter. |
| Dx12Proofs.RenderKeepsFencesSafe | src/hooks/dx12.rs:472-590 | `render` keeps every context of the pool safe and never resets a busy allocator. |
| Dx12Proofs.PresentOnQueue | src/hooks/dx12.rs:247-270 | Present on a renderer with a queue records on the indexed context only and advances the counter by one. |
| Dx12Proofs.PresentKeepsFencesSafe | src/hooks/dx12.rs:240-271 | Present keeps every context safe and never resets a busy allocator. |
| Dx12Proofs.StepKeepsFencesSafe | src/hooks/dx12.rs:188-200 | Every event, including GPU progress, keeps every context safe, never resets a busy allocator and never lowers the counter. |
| Dx12Proofs.RunNeverResetsBusyAllocator | src/hooks/dx12.rs:541-547 | In any run from a fence-safe state, no command allocator is reset while the GPU may still execute what was recorded with it. |
| Dx12Proofs.InstalledNeverResetsBusyAllocator | src/hooks/dx12.rs:188-200 | With the counter starting at 1, every run from installation resets allocators only when idle (the corrected half of the finding below). |
| Dx12Proofs.RenderSignals | src/hooks/dx12.rs:513-581 | `render` signals nothing and keeps the counter, or signals exactly the counter's value and advances it by one. |
| Dx12Proofs.PresentSignals | src/hooks/dx12.rs:240-271 | The same holds for a whole Present. |
| Dx12Proofs.StepSignals | src/hooks/dx12.rs:188-191 | Each event signals at most one fence value, the counter's current value, and then moves the counter past it. |
| Dx12Proofs.RunSignalsIncrease | src/hooks/dx12.rs:188-191 | The fence values signalled in any run are strictly increasing, across all contexts and across renderer rebuilds, and lie between the counter's values at the start and at the end. |
| Dx12Proofs.ScenarioPrefix | src/hooks/dx12.rs:188-200 | After a renderer build, a capture and frames on buffers 0 and 1, buffer 0's context holds the first value handed out, still pending over a completed value of 0. |
| Dx12Proofs.SourceFenceStartResetsBusyAllocator | src/hooks/dx12.rs:189-195 | With the counter starting at 0 as written, the next frame on buffer 0 does not wait and resets its allocator while the GPU may still run it (the as-written half of the finding). |
| Dx12Proofs.FenceStartWaitsBeforeReuse | src/hooks/dx12.rs:193-200 | With the counter starting at 1, the same frame first waits for buffer 0's value 1 and resets no busy allocator. |
| OpenGl3.Install | src/hooks/opengl3.rs:280 | Installing stores the render loop and changes nothing else. |
| OpenGl3.Draw | src/hooks/opengl3.rs:30-81 | `draw` creates a renderer only when none exists, then initialises the render loop exactly once. The DC's window gets the backend's procedure, and the previous one is saved, with no baseline yet. It renders exactly one frame, and panics exactly when the render loop is gone. |
| OpenGl3.Cleanup | src/hooks/opengl3.rs:217-223 | Cleanup puts the saved procedure back on the renderer's game window and leaves every other window alone. |
| OpenGl3.Reset | src/hooks/opengl3.rs:128-155 | No renderer or a busy lock: nothing happens. A missing client rect panics. The first reset stores the geometry as baseline. The renderer is torn down, with the procedure restored and the clear colour set, exactly when width, height, right or bottom differ from the baseline. |
| OpenGl3.SwapBuffers | src/hooks/opengl3.rs:111-126 | A swap panics exactly when the render loop is gone or a reset that got the lock finds no client rect, and then does not call the original. Otherwise exactly one frame is rendered, and the original is called exactly once, last, with its own DC. The render loop is initialised, first and at most once, exactly when there was no renderer. The frame comes right before the original, or right before a clear that precedes it. The clear happens exactly when the renderer ends torn down. Without the lock the renderer survives. |
| OpenGl3.WndProcDispatch | src/hooks/opengl3.rs:89-107 | No renderer or a failed `try_lock` goes to the default procedure. Otherwise the handler chains to the saved procedure, or the call panics without the render loop. |
| OpenGl3.Unhook | src/hooks/opengl3.rs:300-305 | After unhook there is no renderer and no render loop; an existing renderer's saved procedure is back on its game window. |
| OpenGl3Proofs.FirstResetKeepsRenderer | src/hooks/opengl3.rs:141-149 | The first reset on a renderer stores the current viewport size and rect as its baseline and never tears down. |
| OpenGl3Proofs.ResetIdempotent | src/hooks/opengl3.rs:141-149 | A reset that kept the renderer changes nothing when repeated with the same geometry: the baseline is never overwritten. |
| OpenGl3Proofs.LeftTopIgnored | src/hooks/opengl3.rs:145-149 | Once a baseline exists, moving the viewport origin or the rect's left and top edges never changes what a reset does. The first reset, which stores them, is covered by `OpenGl3Proofs.FirstResetKeepsRenderer`. |
| OpenGl3Proofs.DrawKeepsHooked | src/hooks/opengl3.rs:32-78 | Creating a renderer installs the backend's procedure on exactly one window, and saves a procedure that is not the backend's own. |
| OpenGl3Proofs.ResetKeepsHooked | src/hooks/opengl3.rs:145-153 | A teardown leaves no window with the backend's procedure. |
| OpenGl3Proofs.UnhookKeepsHooked | src/hooks/opengl3.rs:300-305 | After unhook no window has the backend's procedure. |
| OpenGl3Proofs.StepKeepsHooked | src/hooks/opengl3.rs:111-126 | Every event keeps the invariant: the backend's procedure is installed on exactly the live renderer's game window. |
| OpenGl3Proofs.RunKeepsHooked | src/hooks/opengl3.rs:111-126 | The invariant holds after any run. |
| OpenGl3Proofs.UnhookLeavesNoDetour | src/hooks/opengl3.rs:300-305 | From a process with no backend procedure installed, any run followed by unhook leaves no window calling the backend's procedure. |
| OpenGl3Proofs.CreateThenResizeRestoresWindows | src/hooks/opengl3.rs:111-155 | The first swap creates and keeps the renderer. A later swap whose geometry changed tears it down with a clear, and every window's procedure is then what it was before the first swap. |

## Left out

- The spin-flag `Fence`/`FenceGuard` and the waits on it in `unhook`
  (src/hooks/dx12.rs:49-85, 785-787). They exist for cross-thread
  quiescence. The model runs detours one at a time, so `Dx12.Unhook` is the
  state after those waits return.
- The 34 ms sleep in `unhook` (src/hooks/dx12.rs:801): a timing heuristic
  with no effect on the state.
- All D3D12, DXGI, Win32 and GL calls themselves: heap, allocator, fence
  and command-list creation, barriers, `GetClientRect`, cursor queries,
  `glGetIntegerv`. They are inputs to the transitions, or `Call` values in
  their output.
- Address discovery and hook installation: `get_present_addr`, vtable reads,
  `MhHook`, the trampolines, `get_opengl_wglswapbuffers_addr`. The trampolines
  are written once before any detour can run and are never cleared, so the
  "trampoline uninitialized" panics cannot happen in the modelled runs.
- The imgui context, the render engine and draw data, and the floating-point
  display-size, mouse-position and delta-time computations
  (src/hooks/dx12.rs:485-525, src/hooks/opengl3.rs:184-214). A frame's
  rendering is the single call `RenderFrame` (OpenGL), or `RenderDrawData`
  with its success flag (DirectX 12).
- DXGI debug-message draining (src/hooks/dx12.rs:143-162): only the
  on/off flag and a `DrainDebugMessages` call are modelled.
- The shared window-message handler `imgui_wnd_proc_impl` is not part of
  this model. Dispatch ends at choosing it, with the saved procedure it
  chains to.
- Blocking `Mutex::lock` calls always succeed. Detours run one at a time,
  so nothing else holds the lock. Only `try_lock` is an input.
- The integration tests and their window harness: they state no behaviour
  beyond what is modelled.
- FrameContexts.Incr: the counter is an unbounded natural number. The
  source's `AtomicU64` would wrap after 2^64 frames, which is not modelled.
- FrameContexts.FramePool: descriptor handles are unbounded naturals. The
  source multiplies `i * increment` in 32 bits before adding it to a
  pointer-sized start; overflow of either is not
  modelled.
- FrameContexts.AwaitValue: with nothing pending that reaches the target,
  the source's `WaitForSingleObjectEx(…, INFINITE)` never returns. The
  model returns once nothing is left to retire, so a hang is not modelled.
  `Dx12Proofs.WaitFreesSafeContext` shows that a context in the state every
  run keeps (`Dx12Proofs.StepKeepsFencesSafe`) never reaches that case.
- FrameContexts.WaitFence: the same hang, for the same reason.
- Dx12.Renderer: the `hookedWindow` field and the `Dx12.CleanupTarget`
  choice in the state are not in the source. They let one model hold both
  the cleanup as written and its correction.
- The re-entry of `render`'s own submission (src/hooks/dx12.rs:579) into
  the ExecuteCommandLists detour is not made a step of the model: the
  `Submit` call stands for it. `Dx12Proofs.OwnSubmitChangesNothing` shows
  the detour would leave the state unchanged there.
- Dx12.WndProcDispatch: states the default and handler outcomes only. The
  panic without a render loop is stated by `Windowing.DispatchMessage`, which
  it calls.

## Findings

| source | as written | input that shows it | evidently intended | confidence | as-written member | corrected member |
|---|---|---|---|---|---|---|
| src/hooks/dx12.rs:189-195 | `FENCE_MAX` starts at 0 and `fetch_add` returns the previous value, so the first frame ever rendered signals fence value 0. A new fence has already completed 0. When that frame context is next reused, `GetCompletedValue() < 0` is false, so `wait_fence` returns at once and the command allocator is reset while the GPU may still be executing the first frame. | A swap chain with 2 buffers: Present (builds the renderer), a DIRECT ExecuteCommandLists (captures the queue), then Presents on back buffers 0, 1, 0 while the GPU has finished neither frame. | Every signalled value is above a new fence's completed value (the counter starts at 1), so the wait covers every reuse. | not executed | Dx12Proofs.SourceFenceStartResetsBusyAllocator | Dx12Proofs.InstalledNeverResetsBusyAllocator |
| src/hooks/dx12.rs:592-601 | `cleanup` calls `store_swap_chain` with the swap chain it was given. It then puts the saved procedure back on that chain's output window, not on the window `new` swapped at dx12.rs:429-433. Present and ResizeBuffers on a swap chain of another window of the same process do exactly this. | Windows 1 and 2 with procedures 11 and 22, and a swap chain on each. Present on window 1's chain, ResizeBuffers on window 2's chain, Present on window 1's chain. Window 2 gets procedure 11, window 1 keeps the backend's procedure, and the new renderer saves that as the procedure to chain to. Each later message that gets the lock goes to a handler whose saved procedure is the backend's own. | Cleanup restores the window that `new` hooked, whichever swap chain it is given. | not executed | Dx12Proofs.ResizeOnOtherChainChainsToItself | Dx12Proofs.InstalledNeverChainsToItself |

=== FILE: base.dfy ===
/** Small shared datatypes: an optional value, and the outcome of a detour
    that either returns or panics (an `unwrap`/`expect` on a missing value, or
    an out-of-range slice index, aborts the hooked call in the original). */
module Base {

  /** An opaque handle to a foreign object (a swap chain, a queue, a device
      context): only its identity matters. */
  type Handle = nat

  datatype Option<+T> = None | Some(value: T)

  /** Why a hooked call panicked. */
  datatype Panic =
    | RenderLoopMissing          // the render loop singleton was taken by `unhook`
    | BackBufferIndexOutOfRange  // `frame_contexts[idx]` with idx >= pool length
    | ClientRectUnavailable      // `get_client_rect(..).unwrap()` on failure

  datatype Outcome<+T> = Done(value: T) | Panicked(reason: Panic)
}

=== FILE: dx12.dfy ===
/** The DirectX 12 backend as a state machine. The global singletons (the
    renderer behind its mutex, the command-queue capture guard, the render
    loop, the DXGI debug flag, the fence-value counter) form one immutable
    `State`; every hooked entry point is one pure transition that returns the
    next state and the calls it makes, ending with the call to the original
    function through its trampoline. Each detour runs as one atomic step. */
module Dx12 {
  import opened Base
  import opened Windowing
  import opened FrameContexts

  /** `D3D12_COMMAND_LIST_TYPE_DIRECT`: the only queue type that is captured. */
  const DIRECT: int := 0

  /** What the model needs of an `IDXGISwapChain3`: its identity and the
      `OutputWindow` and `BufferCount` of its description. */
  datatype SwapChain = SwapChain(id: Handle, outputWindow: Hwnd, bufferCount: nat)

  /** An `ID3D12CommandQueue` and the `Type` of its description. */
  datatype CommandQueue = CommandQueue(id: Handle, queueType: int)

  /** What renderer construction reads from the device: the render-target
      descriptor heap's start and the descriptor stride. */
  datatype Device = Device(rtvHeapStart: nat, rtvIncrement: nat)

  /** The per-frame results of foreign calls during `render`: the swap
      chain's current back-buffer index, and whether `render_draw_data`
      succeeded. */
  datatype Frame = Frame(backBufferIndex: nat, drawDataOk: bool)

  /** `ImguiRenderer`, less its imgui context, engine, heaps and command list.
      `hookedWindow` is the window whose procedure `new` swapped; the source
      does not keep it (see `CleanupTarget`). */
  datatype Renderer = Renderer(
    commandQueue: Option<Handle>,
    wndProc: WndProc,
    frameContexts: seq<FrameContext>,
    swapChain: SwapChain,
    hookedWindow: Hwnd)

  /** The window `cleanup` puts the saved procedure back on. As written it is
      the output window of the swap chain stored last; `HookedWindow` is the
      correction in the README's Findings: the window `new` swapped. */
  datatype CleanupTarget = StoredChainWindow | HookedWindow

  /** The backend's process-wide state. */
  datatype State = State(
    renderer: Option<Renderer>,   // IMGUI_RENDERER
    queueCaptured: bool,          // COMMAND_QUEUE_GUARD is set
    renderLoop: bool,             // IMGUI_RENDER_LOOP is set
    debug: bool,                  // DXGI_DEBUG_ENABLED
    fenceCounter: nat,            // FENCE_MAX
    cleanupTarget: CleanupTarget, // fixed at installation
    windows: ProcTable)           // the OS's window procedures

  datatype ResourceState = PresentState | RenderTarget

  /** Calls a transition makes, in order. */
  datatype Call =
    | PresentOriginal(swapChain: Handle, syncInterval: nat, flags: nat)
    | ExecuteOriginal(queue: Handle, numCommandLists: nat, commandLists: Handle)
    | ResizeOriginal(swapChain: Handle, bufferCount: nat, width: nat, height: nat, format: nat, flags: nat)
    | InitializeRenderLoop
    | WaitForFence(context: nat, value: nat)
    | ResetAllocator(context: nat, inUseByGpu: bool)
    | Barrier(context: nat, before: ResourceState, after: ResourceState)
    | SetRenderTarget(descHandle: nat)
    | RenderDrawData(context: nat, succeeded: bool)
    | DrainDebugMessages
    | Submit(queue: Handle)
    | SignalFence(queue: Handle, context: nat, value: nat)

  /** The next state, the calls made, and the value returned to the host
      (`None` for a detour returning nothing). */
  datatype Reply = Reply(state: State, calls: seq<Call>, hresult: Option<int>)

  /** The state of a process where the hooks were just installed: the render
      loop is stored, nothing else has happened, and the fence counter holds
      `fenceStart`. */
  function Installed(fenceStart: nat, target: CleanupTarget, windows: ProcTable): (s: State)
    ensures s.renderer.None? && !s.queueCaptured && s.renderLoop && !s.debug
    ensures s.fenceCounter == fenceStart && s.cleanupTarget == target && s.windows == windows
  {
    State(None, false, true, false, fenceStart, target, windows)
  }

  /** The part of `ImguiDx12Hooks::new` that touches the state: the render
      loop is stored (again, after an `unhook`). Nothing else changes. */
  function Install(s: State): (s': State)
    ensures s'.renderLoop
    ensures s'.(renderLoop := s.renderLoop) == s
  {
    s.(renderLoop := true)
  }

  // ---------------------------------------------------------------------------
  // ExecuteCommandLists
  // ---------------------------------------------------------------------------

  /** `imgui_execute_command_lists_impl`: while the guard is unset, a
      DIRECT queue submitted while a renderer exists is stored in the
      renderer and sets the guard; any other call stores nothing. The call is
      then forwarded unchanged. */
  function ExecuteCommandLists(s: State, queue: CommandQueue, numCommandLists: nat, commandLists: Handle): (r: Reply)
    ensures r.calls == [ExecuteOriginal(queue.id, numCommandLists, commandLists)]
    ensures r.hresult.None?
    ensures s.queueCaptured ==> r.state == s
    ensures !s.queueCaptured && (queue.queueType != DIRECT || s.renderer.None?) ==> r.state == s
    ensures r.state.queueCaptured <==> s.queueCaptured || (queue.queueType == DIRECT && s.renderer.Some?)
    ensures !s.queueCaptured && r.state.queueCaptured ==>
      && r.state.renderer == Some(s.renderer.value.(commandQueue := Some(queue.id)))
      && r.state.(renderer := s.renderer, queueCaptured := false) == s
  {
    var s' :=
      if s.queueCaptured || queue.queueType != DIRECT || s.renderer.None? then s
      else s.(renderer := Some(s.renderer.value.(commandQueue := Some(queue.id))), queueCaptured := true);
    Reply(s', [ExecuteOriginal(queue.id, numCommandLists, commandLists)], None)
  }

  // ---------------------------------------------------------------------------
  // Renderer
  // ---------------------------------------------------------------------------

  /** `ImguiRenderer::new`: builds one frame context per buffer of the swap
      chain, swaps the output window's procedure for the backend's own and
      keeps the previous one, and starts without a command queue. */
  function NewRenderer(sc: SwapChain, dev: Device, windows: ProcTable): (r: (Renderer, ProcTable))
    ensures r.0.commandQueue.None?
    ensures r.0.swapChain == sc
    ensures r.0.wndProc == ProcOf(windows, sc.outputWindow)
    ensures r.0.hookedWindow == sc.outputWindow
    ensures ProcOf(r.1, sc.outputWindow) == Detour
    ensures forall w :: w != sc.outputWindow ==> ProcOf(r.1, w) == ProcOf(windows, w)
    ensures |r.0.frameContexts| == sc.bufferCount
    ensures forall i :: 0 <= i < sc.bufferCount ==>
      r.0.frameContexts[i].fenceVal == 0 && r.0.frameContexts[i].fence == NewFence
      && r.0.frameContexts[i].descHandle == dev.rtvHeapStart + i * dev.rtvIncrement
  {
    var pool := FramePool(dev.rtvHeapStart, dev.rtvIncrement, sc.bufferCount);
    var (windows', previous) := SetWndProc(windows, sc.outputWindow, Detour);
    (Renderer(None, previous, pool, sc, sc.outputWindow), windows')
  }

  /** `ImguiRenderer::store_swap_chain`: a given swap chain replaces the
      stored one; the stored one is returned either way. */
  function StoreSwapChain(r: Renderer, sc: Option<SwapChain>): (out: (Renderer, SwapChain))
    ensures out.0.swapChain == out.1
    ensures sc.Some? ==> out.1 == sc.value
    ensures sc.None? ==> out.1 == r.swapChain && out.0 == r
    ensures out.0.(swapChain := r.swapChain) == r
  {
    var stored := if sc.Some? then sc.value else r.swapChain;
    (r.(swapChain := stored), stored)
  }

  /** The window `cleanup` restores: as written, the output window of the
      swap chain it has just stored; under the correction, the hooked one. */
  function CleanupWindow(r: Renderer, sc: Option<SwapChain>, target: CleanupTarget): Hwnd {
    match target
    case StoredChainWindow => StoreSwapChain(r, sc).1.outputWindow
    case HookedWindow => r.hookedWindow
  }

  /** `ImguiRenderer::cleanup`: after storing the given swap chain, puts the
      saved procedure back on that swap chain's output window, which need
      not be the window `new` swapped. */
  function Cleanup(r: Renderer, sc: Option<SwapChain>, target: CleanupTarget, windows: ProcTable): (windows': ProcTable)
    ensures target == StoredChainWindow && sc.Some? ==> ProcOf(windows', sc.value.outputWindow) == r.wndProc
    ensures target == StoredChainWindow && sc.None? ==> ProcOf(windows', r.swapChain.outputWindow) == r.wndProc
    ensures target == HookedWindow ==> ProcOf(windows', r.hookedWindow) == r.wndProc
    ensures forall w :: w != CleanupWindow(r, sc, target) ==> ProcOf(windows', w) == ProcOf(windows, w)
  {
    SetWndProc(windows, CleanupWindow(r, sc, target), r.wndProc).0
  }

  /** What `render` returns to its caller: the updated renderer and counter,
      and the calls it made. */
  datatype Rendered = Rendered(renderer: Renderer, fenceCounter: nat, calls: seq<Call>)

  /** The index of the allocator reset in `RecordFrame`'s calls: right after
      the wait, when there is one. */
  function ResetPosition(fc: FrameContext): nat {
    if fc.fence.completed < fc.fenceVal then 1 else 0
  }

  /** The calls `render` makes on frame context `i` after the wait: reset
      the allocator, move the back buffer to render target, record, move it
      back to present, submit, and signal `value`. A failed recording is
      still closed, submitted and signalled. */
  function SubmitCalls(i: nat, fc: FrameContext, inUse: bool, q: Handle, value: nat, drawDataOk: bool, debug: bool): (calls: seq<Call>)
    ensures |calls| >= 7 && calls[0] == ResetAllocator(i, inUse)
    ensures calls[1] == Barrier(i, PresentState, RenderTarget) && calls[2] == SetRenderTarget(fc.descHandle)
    ensures calls[3] == RenderDrawData(i, drawDataOk)
    ensures forall k :: 1 <= k < |calls| ==> !calls[k].ResetAllocator? && !calls[k].WaitForFence?
    ensures forall k :: 0 <= k < |calls| - 1 ==> !calls[k].SignalFence?
    ensures forall k :: 0 <= k < |calls| ==> !calls[k].InitializeRenderLoop? && !calls[k].PresentOriginal?
    ensures calls[|calls| - 3..] == [Barrier(i, RenderTarget, PresentState), Submit(q), SignalFence(q, i, value)]
    ensures RenderDrawData(i, drawDataOk) in calls
    ensures DrainDebugMessages in calls <==> !drawDataOk && debug
  {
    [ResetAllocator(i, inUse), Barrier(i, PresentState, RenderTarget), SetRenderTarget(fc.descHandle),
     RenderDrawData(i, drawDataOk)]
    + (if !drawDataOk && debug then [DrainDebugMessages] else [])
    + [Barrier(i, RenderTarget, PresentState), Submit(q), SignalFence(q, i, value)]
  }

  /** The order of `render`'s calls on frame context `i`, with the allocator
      reset at position `p`: nothing but waits before it, no other reset and
      no wait after it, and the one signal, of `value`, last after the
      closing barrier and the submission. */
  predicate FrameOrder(calls: seq<Call>, p: nat, i: nat, inUse: bool, q: Handle, value: nat) {
    && |calls| >= p + 7
    && calls[p] == ResetAllocator(i, inUse)
    && (forall k :: 0 <= k < |calls| && k != p ==> !calls[k].ResetAllocator?)
    && (forall k :: 1 <= k < |calls| ==> !calls[k].WaitForFence?)
    && (forall k :: 0 <= k < |calls| - 1 ==> !calls[k].SignalFence?)
    && calls[|calls| - 3..] == [Barrier(i, RenderTarget, PresentState), Submit(q), SignalFence(q, i, value)]
  }

  /** The part of `render` that works on frame context `i` with queue `q`:
      `wait_fence` on the context's previous value, then `incr`, then the
      submission, which signals the new value. Returns the updated context,
      which takes the counter's value and otherwise differs only in its
      fence, and the calls made. */
  function RecordFrame(i: nat, fc: FrameContext, q: Handle, counter: nat, frame: Frame, debug: bool): (out: (FrameContext, seq<Call>))
    ensures out.0.fenceVal == counter
    ensures out.0.(fence := fc.fence, fenceVal := fc.fenceVal) == fc
  {
    var (fc1, _) := WaitFence(fc);
    var (fc2, _) := Incr(fc1, counter);
    var sub := SubmitCalls(i, fc, fc1.fence.pending != [], q, fc2.fenceVal, frame.drawDataOk, debug);
    (fc2.(fence := Signal(fc2.fence, fc2.fenceVal)), WaitCalls(i, fc) + sub)
  }

  /** In `render`'s calls on a frame context, a wait comes first, on the
      context's previous value, exactly when the GPU is behind it; exactly
      one allocator reset follows; the one signal, of the new value, comes
      last after the closing barrier and the submission, whether or not
      recording succeeded. */
  lemma RecordFrameOrder(i: nat, fc: FrameContext, q: Handle, counter: nat, frame: Frame, debug: bool)
    ensures FrameOrder(RecordFrame(i, fc, q, counter, frame, debug).1, ResetPosition(fc), i,
                       WaitFence(fc).0.fence.pending != [], q, counter)
    ensures ResetPosition(fc) == 1 <==> RecordFrame(i, fc, q, counter, frame, debug).1[0] == WaitForFence(i, fc.fenceVal)
  {
    var inUse := WaitFence(fc).0.fence.pending != [];
    var calls := RecordFrame(i, fc, q, counter, frame, debug).1;
    RecordFrameSplit(i, fc, q, counter, frame, debug);
    SubmitThenOrder(calls, WaitCalls(i, fc), SubmitCalls(i, fc, inUse, q, counter, frame.drawDataOk, debug),
                    i, inUse, q, counter, fc.fenceVal);
  }

  lemma RecordFrameSplit(i: nat, fc: FrameContext, q: Handle, counter: nat, frame: Frame, debug: bool)
    ensures RecordFrame(i, fc, q, counter, frame, debug).1
         == WaitCalls(i, fc) + SubmitCalls(i, fc, WaitFence(fc).0.fence.pending != [], q, counter, frame.drawDataOk, debug)
  {
  }

  /** Recording a frame never initialises the render loop: that happens
      only when a renderer is built. */
  lemma RecordFrameNoInit(i: nat, fc: FrameContext, q: Handle, counter: nat, frame: Frame, debug: bool)
    ensures InitializeRenderLoop !in RecordFrame(i, fc, q, counter, frame, debug).1
  {
    RecordFrameSplit(i, fc, q, counter, frame, debug);
  }

  /** After a frame the context's fence has the new value as its last
      pending signal, behind what the wait left pending of the old ones; the
      wait either reached the previous value or drained the fence, and
      without a wait the fence only gains the new signal. */
  lemma RecordFrameFence(i: nat, fc: FrameContext, q: Handle, counter: nat, frame: Frame, debug: bool)
    ensures
      var f := RecordFrame(i, fc, q, counter, frame, debug).0.fence;
      && |f.pending| >= 1 && f.pending[|f.pending| - 1] == counter
      && |f.pending| - 1 <= |fc.fence.pending|
      && f.pending[..|f.pending| - 1] == fc.fence.pending[|fc.fence.pending| - (|f.pending| - 1)..]
      && (f.completed >= fc.fenceVal || |f.pending| == 1)
      && (fc.fence.completed >= fc.fenceVal ==> f == Signal(fc.fence, counter))
  {
    var w := WaitFence(fc).0.fence;
    assert RecordFrame(i, fc, q, counter, frame, debug).0.fence == Signal(w, counter);
  }

  /** `WaitThenSubmit` for a call list known only to equal a wait on `v`
      followed by a submission. */
  lemma SubmitThenOrder(calls: seq<Call>, w: seq<Call>, sub: seq<Call>, i: nat, inUse: bool, q: Handle, value: nat, v: nat)
    requires calls == w + sub
    requires |w| <= 1
    requires forall k :: 0 <= k < |w| ==> w[k] == WaitForFence(i, v)
    requires |sub| >= 7 && sub[0] == ResetAllocator(i, inUse)
    requires forall k :: 1 <= k < |sub| ==> !sub[k].ResetAllocator? && !sub[k].WaitForFence?
    requires forall k :: 0 <= k < |sub| - 1 ==> !sub[k].SignalFence?
    requires sub[|sub| - 3..] == [Barrier(i, RenderTarget, PresentState), Submit(q), SignalFence(q, i, value)]
    ensures FrameOrder(calls, |w|, i, inUse, q, value)
    ensures |w| == 1 <==> calls[0] == WaitForFence(i, v)
  {
    WaitThenSubmit(w, sub, i, inUse, q, value);
  }

  /** The wait `render` makes on frame context `i` before reusing it. */
  function WaitCalls(i: nat, fc: FrameContext): (w: seq<Call>)
    ensures |w| == ResetPosition(fc)
    ensures forall k :: 0 <= k < |w| ==> w[k] == WaitForFence(i, fc.fenceVal)
  {
    if fc.fence.completed < fc.fenceVal then [WaitForFence(i, fc.fenceVal)] else []
  }

  /** The order facts of `RecordFrame`, for any optional wait followed by
      any submission shaped like `SubmitCalls`'s. */
  lemma WaitThenSubmit(w: seq<Call>, sub: seq<Call>, i: nat, inUse: bool, q: Handle, value: nat)
    requires |w| <= 1
    requires forall k :: 0 <= k < |w| ==> w[k].WaitForFence?
    requires |sub| >= 7 && sub[0] == ResetAllocator(i, inUse)
    requires forall k :: 1 <= k < |sub| ==> !sub[k].ResetAllocator? && !sub[k].WaitForFence?
    requires forall k :: 0 <= k < |sub| - 1 ==> !sub[k].SignalFence?
    requires sub[|sub| - 3..] == [Barrier(i, RenderTarget, PresentState), Submit(q), SignalFence(q, i, value)]
    ensures FrameOrder(w + sub, |w|, i, inUse, q, value)
    ensures |w| == 1 ==> (w + sub)[0] == w[0]
    ensures |w| == 0 ==> (w + sub)[0] == sub[0]
  {
    var calls := w + sub;
    forall k | |w| <= k < |calls| ensures calls[k] == sub[k - |w|] { }
    assert calls[|calls| - 3..] == sub[|sub| - 3..];
  }

  /** `ImguiRenderer::render`. Indexing the pool with the back-buffer index
      happens first and panics when out of range; without a captured queue
      it returns before touching any frame context or the counter; otherwise
      it needs the render loop, records and submits on the indexed context
      and advances the counter by one. It never initialises the render
      loop. */
  function Render(r: Renderer, counter: nat, sc: Option<SwapChain>, frame: Frame, renderLoop: bool, debug: bool): (o: Outcome<Rendered>)
    ensures o == Panicked(BackBufferIndexOutOfRange) <==> frame.backBufferIndex >= |r.frameContexts|
    ensures o == Panicked(RenderLoopMissing) <==>
      frame.backBufferIndex < |r.frameContexts| && r.commandQueue.Some? && !renderLoop
    ensures o.Done? <==> frame.backBufferIndex < |r.frameContexts| && (r.commandQueue.None? || renderLoop)
    ensures o.Done? ==> InitializeRenderLoop !in o.value.calls
    ensures o.Done? ==> o.value.renderer.(frameContexts := r.frameContexts) == StoreSwapChain(r, sc).0
    ensures o.Done? ==> |o.value.renderer.frameContexts| == |r.frameContexts|
    ensures o.Done? && r.commandQueue.None? ==>
      o.value.calls == [] && o.value.fenceCounter == counter && o.value.renderer.frameContexts == r.frameContexts
    ensures o.Done? && r.commandQueue.Some? ==>
      var i := frame.backBufferIndex;
      var recorded := RecordFrame(i, r.frameContexts[i], r.commandQueue.value, counter, frame, debug);
      && o.value.fenceCounter == counter + 1
      && o.value.calls == recorded.1
      && o.value.renderer.frameContexts == r.frameContexts[i := recorded.0]
  {
    var (r1, _) := StoreSwapChain(r, sc);
    var i := frame.backBufferIndex;
    if i >= |r1.frameContexts| then Panicked(BackBufferIndexOutOfRange)
    else match r1.commandQueue
      case None => Done(Rendered(r1, counter, []))
      case Some(q) =>
        if !renderLoop then Panicked(RenderLoopMissing)
        else
          var (fc', calls) := RecordFrame(i, r1.frameContexts[i], q, counter, frame, debug);
          RecordFrameNoInit(i, r1.frameContexts[i], q, counter, frame, debug);
          Done(Rendered(r1.(frameContexts := r1.frameContexts[i := fc']), counter + 1, calls))
  }

  // ---------------------------------------------------------------------------
  // Present
  // ---------------------------------------------------------------------------

  /** `imgui_dxgi_swap_chain_present_impl`: creates the renderer when there
      is none (which needs the render loop, initialised once), renders one
      frame, forwards the call unchanged and returns the original's result
      (`originalResult`); with debugging on, the debug queue is drained
      afterwards. */
  function Present(s: State, sc: SwapChain, syncInterval: nat, flags: nat, dev: Device, frame: Frame, originalResult: int): (o: Outcome<Reply>)
    ensures s.renderer.None? && !s.renderLoop ==> o == Panicked(RenderLoopMissing)
    ensures o == Panicked(BackBufferIndexOutOfRange) <==>
      (s.renderer.Some? || s.renderLoop)
      && frame.backBufferIndex >= (if s.renderer.Some? then |s.renderer.value.frameContexts| else sc.bufferCount)
    ensures o == Panicked(RenderLoopMissing) <==>
      !s.renderLoop
      && (s.renderer.None?
          || (frame.backBufferIndex < |s.renderer.value.frameContexts| && s.renderer.value.commandQueue.Some?))
    ensures o.Panicked? ==> o.reason != ClientRectUnavailable
    ensures o.Done? ==>
      && o.value.hresult == Some(originalResult)
      && o.value.state.renderer.Some?
      && o.value.state.queueCaptured == s.queueCaptured
      && o.value.state.renderLoop == s.renderLoop
      && o.value.state.debug == s.debug
      && o.value.state.renderer.value.swapChain == sc
      && |o.value.calls| >= (if s.debug then 2 else 1)
      && o.value.calls[|o.value.calls| - (if s.debug then 2 else 1)] == PresentOriginal(sc.id, syncInterval, flags)
      && (s.debug ==> o.value.calls[|o.value.calls| - 1] == DrainDebugMessages)
      && (o.value.calls[0] == InitializeRenderLoop <==> s.renderer.None?)
      && (forall k :: 1 <= k < |o.value.calls| ==> o.value.calls[k] != InitializeRenderLoop)
    ensures o.Done? && s.renderer.Some? ==>
      && o.value.state.windows == s.windows
      && o.value.state.renderer.value.commandQueue == s.renderer.value.commandQueue
      && o.value.state.renderer.value.wndProc == s.renderer.value.wndProc
    ensures o.Done? && s.renderer.None? ==>
      && o.value.state.renderer.value.wndProc == ProcOf(s.windows, sc.outputWindow)
      && o.value.state.renderer.value.commandQueue.None?
      && |o.value.state.renderer.value.frameContexts| == sc.bufferCount
  {
    if s.renderer.None? && !s.renderLoop then Panicked(RenderLoopMissing)
    else
      var (r0, windows', created) :=
        if s.renderer.Some? then (s.renderer.value, s.windows, false)
        else var (nr, w) := NewRenderer(sc, dev, s.windows); (nr, w, true);
      match Render(r0, s.fenceCounter, Some(sc), frame, s.renderLoop, s.debug)
      case Panicked(p) => Panicked(p)
      case Done(rd) =>
        var calls :=
          (if created then [InitializeRenderLoop] else [])
          + rd.calls
          + [PresentOriginal(sc.id, syncInterval, flags)]
          + (if s.debug then [DrainDebugMessages] else []);
        PresentCalls(calls, created, rd.calls, PresentOriginal(sc.id, syncInterval, flags), s.debug);
        Done(Reply(
          s.(renderer := Some(rd.renderer), fenceCounter := rd.fenceCounter, windows := windows'),
          calls, Some(originalResult)))
  }

  /** The shape of Present's calls, for any calls of `render` that do not
      initialise the render loop: the initialisation only first and only
      when building, the original next to last or last, any drain last. */
  lemma PresentCalls(calls: seq<Call>, created: bool, mid: seq<Call>, original: Call, debug: bool)
    requires original.PresentOriginal? && InitializeRenderLoop !in mid
    requires calls == (if created then [InitializeRenderLoop] else []) + mid + [original]
                      + (if debug then [DrainDebugMessages] else [])
    ensures |calls| >= (if debug then 2 else 1)
    ensures calls[|calls| - (if debug then 2 else 1)] == original
    ensures debug ==> calls[|calls| - 1] == DrainDebugMessages
    ensures calls[0] == InitializeRenderLoop <==> created
    ensures forall k :: 1 <= k < |calls| ==> calls[k] != InitializeRenderLoop
  {
    var pre := if created then [InitializeRenderLoop] else [];
    var tail := if debug then [DrainDebugMessages] else [];
    forall k | 1 <= k < |calls| ensures calls[k] != InitializeRenderLoop {
      if k < |pre| + |mid| {
        assert calls[k] == mid[k - |pre|];
      } else if k == |pre| + |mid| {
        assert calls[k] == original;
      } else {
        assert calls[k] == tail[k - |pre| - |mid| - 1];
      }
    }
    if !created {
      assert calls[0] == (mid + [original])[0];
    }
  }

  // ---------------------------------------------------------------------------
  // ResizeBuffers, WndProc, unhook, debugging
  // ---------------------------------------------------------------------------

  /** `imgui_resize_buffers_impl`: an existing renderer is cleaned up against
      the resized swap chain and dropped, the capture guard is cleared, and
      the call is forwarded unchanged. As written the saved procedure goes
      back on the resized chain's window, whichever window was hooked. */
  function ResizeBuffers(s: State, sc: SwapChain, bufferCount: nat, width: nat, height: nat, format: nat, flags: nat, originalResult: int): (r: Reply)
    ensures r.state.renderer.None? && !r.state.queueCaptured
    ensures r.calls == [ResizeOriginal(sc.id, bufferCount, width, height, format, flags)]
    ensures r.hresult == Some(originalResult)
    ensures r.state.renderLoop == s.renderLoop && r.state.debug == s.debug && r.state.fenceCounter == s.fenceCounter
    ensures r.state.cleanupTarget == s.cleanupTarget
    ensures s.renderer.Some? ==>
      var w := if s.cleanupTarget == StoredChainWindow then sc.outputWindow else s.renderer.value.hookedWindow;
      && ProcOf(r.state.windows, w) == s.renderer.value.wndProc
      && forall v :: v != w ==> ProcOf(r.state.windows, v) == ProcOf(s.windows, v)
    ensures s.renderer.None? ==> r.state.windows == s.windows
  {
    var windows' := if s.renderer.Some? then Cleanup(s.renderer.value, Some(sc), s.cleanupTarget, s.windows) else s.windows;
    Reply(s.(renderer := None, queueCaptured := false, windows := windows'),
          [ResizeOriginal(sc.id, bufferCount, width, height, format, flags)], Some(originalResult))
  }

  /** `imgui_wnd_proc`: where a message goes. The state is not changed. */
  function WndProcDispatch(s: State, lockAcquired: bool): (d: Outcome<Dispatch>)
    ensures s.renderer.None? ==> d == Done(DefaultProc)
    ensures s.renderer.Some? && !lockAcquired ==> d == Done(DefaultProc)
    ensures s.renderer.Some? && lockAcquired && s.renderLoop ==> d == Done(Handler(s.renderer.value.wndProc))
  {
    DispatchMessage(if s.renderer.Some? then Some(s.renderer.value.wndProc) else None, lockAcquired, s.renderLoop)
  }

  /** `ImguiDx12Hooks::unhook`, after the in-flight detours have drained: an
      existing renderer restores the window procedure on its stored swap
      chain's window and is dropped; the render loop, the capture guard and
      the debug flag are cleared. The fence counter is process-wide and keeps
      its value. */
  function Unhook(s: State): (s': State)
    ensures s'.renderer.None? && !s'.queueCaptured && !s'.renderLoop && !s'.debug
    ensures s'.fenceCounter == s.fenceCounter && s'.cleanupTarget == s.cleanupTarget
    ensures s.renderer.Some? ==>
      var r := s.renderer.value;
      var w := if s.cleanupTarget == StoredChainWindow then r.swapChain.outputWindow else r.hookedWindow;
      && ProcOf(s'.windows, w) == r.wndProc
      && forall v :: v != w ==> ProcOf(s'.windows, v) == ProcOf(s.windows, v)
    ensures s.renderer.None? ==> s'.windows == s.windows
  {
    var windows' := if s.renderer.Some? then Cleanup(s.renderer.value, None, s.cleanupTarget, s.windows) else s.windows;
    State(None, false, false, false, s.fenceCounter, s.cleanupTarget, windows')
  }

  /** `enable_dxgi_debug`. */
  function EnableDebug(s: State): (s': State)
    ensures s'.debug && s'.(debug := s.debug) == s
  {
    s.(debug := true)
  }

  /** `disable_dxgi_debug`. */
  function DisableDebug(s: State): (s': State)
    ensures !s'.debug && s'.(debug := s.debug) == s
  {
    s.(debug := false)
  }
}

=== FILE: dx12_proofs.dfy ===
/** Properties of the DirectX 12 state machine over whole runs: the host's
    calls into the hooked entry points, the window procedure, the hook
    lifecycle, and the GPU's own progress, in any order. */
module Dx12Proofs {
  import opened Base
  import opened Windowing
  import opened FrameContexts
  import opened Dx12

  /** One step of the environment. `GpuProgress(i)` is the GPU reaching the
      oldest pending signal on frame context `i`'s fence. */
  datatype Event =
    | ExecuteCommandListsCall(queue: CommandQueue, numCommandLists: nat, commandLists: Handle)
    | PresentCall(swapChain: SwapChain, syncInterval: nat, flags: nat, dev: Device, frame: Frame, originalResult: int)
    | ResizeBuffersCall(swapChain: SwapChain, bufferCount: nat, width: nat, height: nat, format: nat, flags: nat, originalResult: int)
    | WndProcCall(lockAcquired: bool)
    | InstallCall
    | UnhookCall
    | EnableDebugCall
    | DisableDebugCall
    | GpuProgress(context: nat)

  /** The GPU's progress on one frame context's fence: that fence retires
      its oldest pending signal, and nothing else changes. */
  function GpuAdvance(s: State, i: nat): (s': State)
    ensures s'.(renderer := s.renderer) == s
    ensures s'.renderer.Some? <==> s.renderer.Some?
    ensures s.renderer.Some? ==>
      var pool := s.renderer.value.frameContexts;
      var pool' := s'.renderer.value.frameContexts;
      && s'.renderer.value.(frameContexts := pool) == s.renderer.value
      && |pool'| == |pool|
      && (forall j :: 0 <= j < |pool| ==> pool'[j].(fence := pool[j].fence) == pool[j])
      && (forall j :: 0 <= j < |pool| && j != i ==> pool'[j] == pool[j])
      && (i < |pool| && pool[i].fence.pending != [] ==>
            pool'[i].fence.completed == pool[i].fence.pending[0] && pool'[i].fence.pending == pool[i].fence.pending[1..])
      && (i < |pool| && pool[i].fence.pending == [] ==> pool'[i] == pool[i])
  {
    if s.renderer.Some? && i < |s.renderer.value.frameContexts| then
      var r := s.renderer.value;
      var fc := r.frameContexts[i];
      s.(renderer := Some(r.(frameContexts := r.frameContexts[i := fc.(fence := Retire(fc.fence))])))
    else s
  }

  function Step(s: State, e: Event): Outcome<Reply> {
    match e
    case ExecuteCommandListsCall(q, n, l) => Done(ExecuteCommandLists(s, q, n, l))
    case PresentCall(sc, si, f, dev, fr, hr) => Present(s, sc, si, f, dev, fr, hr)
    case ResizeBuffersCall(sc, bc, w, h, fmt, f, hr) => Done(ResizeBuffers(s, sc, bc, w, h, fmt, f, hr))
    case WndProcCall(lock) =>
      (match WndProcDispatch(s, lock)
       case Panicked(p) => Panicked(p)
       case Done(_) => Done(Reply(s, [], None)))
    case InstallCall => Done(Reply(Install(s), [], None))
    case UnhookCall => Done(Reply(Unhook(s), [], None))
    case EnableDebugCall => Done(Reply(EnableDebug(s), [], None))
    case DisableDebugCall => Done(Reply(DisableDebug(s), [], None))
    case GpuProgress(i) => Done(Reply(GpuAdvance(s, i), [], None))
  }

  /** The events in order; the calls of all steps are concatenated. A panic
      ends the run. */
  function Run(s: State, es: seq<Event>): Outcome<Reply>
    decreases |es|
  {
    if es == [] then Done(Reply(s, [], None))
    else match Step(s, es[0])
      case Panicked(p) => Panicked(p)
      case Done(r) =>
        match Run(r.state, es[1..])
        case Panicked(p) => Panicked(p)
        case Done(rest) => Done(Reply(rest.state, r.calls + rest.calls, rest.hresult))
  }

  // ---------------------------------------------------------------------------
  // The capture guard
  // ---------------------------------------------------------------------------

  /** The capture guard is set exactly when a renderer exists and holds a
      queue, and a renderer only exists while the render loop does. */
  ghost predicate Wellformed(s: State) {
    && (s.queueCaptured <==> s.renderer.Some? && s.renderer.value.commandQueue.Some?)
    && (s.renderer.Some? ==> s.renderLoop)
  }

  lemma StepKeepsWellformed(s: State, e: Event)
    requires Wellformed(s)
    ensures Step(s, e).Done? ==> Wellformed(Step(s, e).value.state)
  {
    match e
    case PresentCall(sc, si, f, dev, fr, hr) =>
      if Step(s, e).Done? && s.renderer.None? {
        assert !s.queueCaptured;
      }
    case _ =>
  }

  /** Every run keeps the guard and the renderer's queue in step: the guard
      is never set without a renderer holding a queue, and never left set
      when ResizeBuffers or unhook drop the renderer. */
  lemma {:induction false} RunKeepsWellformed(s: State, es: seq<Event>)
    requires Wellformed(s)
    ensures Run(s, es).Done? ==> Wellformed(Run(s, es).value.state)
    decreases |es|
  {
    if es != [] && Step(s, es[0]).Done? {
      StepKeepsWellformed(s, es[0]);
      RunKeepsWellformed(Step(s, es[0]).value.state, es[1..]);
    }
  }

  /** ExecuteCommandLists rejects a non-DIRECT queue, or any queue while no
      renderer exists, without setting the guard; so a later DIRECT queue
      submitted while a renderer exists is still captured. */
  lemma RejectedQueueLeavesCaptureOpen(s: State, rejected: CommandQueue, direct: CommandQueue, n: nat, l: Handle)
    requires !s.queueCaptured
    requires rejected.queueType != DIRECT || s.renderer.None?
    requires direct.queueType == DIRECT
    ensures !ExecuteCommandLists(s, rejected, n, l).state.queueCaptured
    ensures s.renderer.Some? ==>
      var s2 := ExecuteCommandLists(ExecuteCommandLists(s, rejected, n, l).state, direct, n, l).state;
      s2.queueCaptured && s2.renderer.value.commandQueue == Some(direct.id)
  {
  }

  /** `render`'s own submission on the captured queue goes back through the
      ExecuteCommandLists detour. On a well-formed state with a captured
      queue the guard is already set, so the re-entry changes nothing. */
  lemma OwnSubmitChangesNothing(s: State, n: nat, l: Handle)
    requires Wellformed(s) && s.renderer.Some? && s.renderer.value.commandQueue.Some?
    ensures ExecuteCommandLists(s, CommandQueue(s.renderer.value.commandQueue.value, DIRECT), n, l).state == s
  {
  }

  /** Once the guard is set, no run without ResizeBuffers or unhook changes
      the captured queue, whatever queues are submitted meanwhile. */
  lemma {:induction false} CapturedQueueStable(s: State, es: seq<Event>)
    requires Wellformed(s) && s.queueCaptured
    requires forall k :: 0 <= k < |es| ==> !es[k].ResizeBuffersCall? && !es[k].UnhookCall?
    ensures Run(s, es).Done? ==>
      && Run(s, es).value.state.queueCaptured
      && Run(s, es).value.state.renderer.Some?
      && Run(s, es).value.state.renderer.value.commandQueue == s.renderer.value.commandQueue
    decreases |es|
  {
    if es != [] && Step(s, es[0]).Done? {
      var s1 := Step(s, es[0]).value.state;
      StepKeepsWellformed(s, es[0]);
      assert s1.queueCaptured && s1.renderer.value.commandQueue == s.renderer.value.commandQueue;
      CapturedQueueStable(s1, es[1..]);
    }
  }

  // ---------------------------------------------------------------------------
  // Window procedure round trip
  // ---------------------------------------------------------------------------

  /** The window procedure swapped in when Present builds a renderer is the
      one ResizeBuffers on the same swap chain puts back: the window table
      ends as it began. */
  lemma PresentThenResizeRestoresWindow(
    s: State, sc: SwapChain, si: nat, f: nat, dev: Device, frame: Frame, hr: int,
    bc: nat, w: nat, h: nat, fmt: nat, f2: nat, hr2: int)
    requires s.renderer.None? && s.renderLoop
    requires sc.outputWindow in s.windows
    requires Present(s, sc, si, f, dev, frame, hr).Done?
    ensures ResizeBuffers(Present(s, sc, si, f, dev, frame, hr).value.state, sc, bc, w, h, fmt, f2, hr2).state.windows
         == s.windows
  {
    var s1 := Present(s, sc, si, f, dev, frame, hr).value.state;
    var s2 := ResizeBuffers(s1, sc, bc, w, h, fmt, f2, hr2).state;
    assert s2.windows == s1.windows[sc.outputWindow := s1.renderer.value.wndProc];
    assert s1.windows == s.windows[sc.outputWindow := Detour];
    SwapThenRestore(s.windows, sc.outputWindow, Detour);
  }

  /** The backend's procedure is installed on exactly one window, the live
      renderer's hooked window, and the procedure the renderer saved is never
      the backend's own (so the handler never chains to itself). */
  ghost predicate Hooked(s: State) {
    && (forall w :: ProcOf(s.windows, w) == Detour ==> s.renderer.Some? && w == s.renderer.value.hookedWindow)
    && (s.renderer.Some? ==>
          && s.renderer.value.wndProc != Detour
          && ProcOf(s.windows, s.renderer.value.hookedWindow) == Detour)
  }

  /** The host's swap chains in event `e` all present to window `w`. */
  ghost predicate OnWindow(e: Event, w: Hwnd) {
    && (e.PresentCall? ==> e.swapChain.outputWindow == w)
    && (e.ResizeBuffersCall? ==> e.swapChain.outputWindow == w)
  }

  /** What cleanup needs to restore the hooked window. Under the correction,
      nothing. As written, the stored swap chain must present to the hooked
      window, which must be `w`, and so must every swap chain the host
      passes in. */
  ghost predicate CleanupHitsHooked(s: State, es: seq<Event>, w: Hwnd) {
    s.cleanupTarget == StoredChainWindow ==>
      && (s.renderer.Some? ==> s.renderer.value.hookedWindow == w && s.renderer.value.swapChain.outputWindow == w)
      && (forall k :: 0 <= k < |es| ==> OnWindow(es[k], w))
  }

  /** The window effects of Present: building a renderer swaps the output
      window's procedure for the backend's own and hooks that window; a
      renderer that already exists keeps its hooked window and the window
      table. */
  lemma PresentHooks(s: State, sc: SwapChain, si: nat, f: nat, dev: Device, fr: Frame, hr: int)
    ensures Present(s, sc, si, f, dev, fr, hr).Done? ==>
      var o := Present(s, sc, si, f, dev, fr, hr).value;
      && o.state.cleanupTarget == s.cleanupTarget
      && o.state.renderer.Some?
      && (s.renderer.Some? ==>
            && o.state.windows == s.windows
            && o.state.renderer.value.wndProc == s.renderer.value.wndProc
            && o.state.renderer.value.hookedWindow == s.renderer.value.hookedWindow)
      && (s.renderer.None? ==>
            && o.state.renderer.value.wndProc == ProcOf(s.windows, sc.outputWindow)
            && o.state.renderer.value.hookedWindow == sc.outputWindow
            && ProcOf(o.state.windows, sc.outputWindow) == Detour
            && (forall w :: w != sc.outputWindow ==> ProcOf(o.state.windows, w) == ProcOf(s.windows, w)))
  {
    if Present(s, sc, si, f, dev, fr, hr).Done? {
      var r0 := PresentShape(s, sc, si, f, dev, fr, hr);
    }
  }

  lemma StepKeepsHooked(s: State, e: Event, w: Hwnd)
    requires Hooked(s) && CleanupHitsHooked(s, [e], w)
    ensures Step(s, e).Done? ==>
      && Hooked(Step(s, e).value.state)
      && Step(s, e).value.state.cleanupTarget == s.cleanupTarget
      && CleanupHitsHooked(Step(s, e).value.state, [], w)
  {
    assert OnWindow([e][0], w) || s.cleanupTarget == HookedWindow;
    match e
    case PresentCall(sc, si, f, dev, fr, hr) =>
      PresentHooks(s, sc, si, f, dev, fr, hr);
      if Present(s, sc, si, f, dev, fr, hr).Done? && s.renderer.None? {
        assert ProcOf(s.windows, sc.outputWindow) != Detour;
      }
    case GpuProgress(i) =>
      if s.renderer.Some? {
        assert GpuAdvance(s, i).renderer.value.(frameContexts := s.renderer.value.frameContexts) == s.renderer.value;
      }
    case _ =>
  }

  /** Every run keeps the backend's procedure on exactly the live renderer's
      hooked window: with the corrected cleanup always, and as written when
      every swap chain presents to one window. */
  lemma {:induction false} RunKeepsHooked(s: State, es: seq<Event>, w: Hwnd)
    requires Hooked(s) && CleanupHitsHooked(s, es, w)
    ensures Run(s, es).Done? ==>
      && Hooked(Run(s, es).value.state)
      && Run(s, es).value.state.cleanupTarget == s.cleanupTarget
      && CleanupHitsHooked(Run(s, es).value.state, [], w)
    decreases |es|
  {
    if es != [] && Step(s, es[0]).Done? {
      assert CleanupHitsHooked(s, [es[0]], w) by {
        if s.cleanupTarget == StoredChainWindow {
          assert OnWindow(es[0], w);
        }
      }
      StepKeepsHooked(s, es[0], w);
      var s1 := Step(s, es[0]).value.state;
      assert CleanupHitsHooked(s1, es[1..], w) by {
        if s.cleanupTarget == StoredChainWindow {
          forall k | 0 <= k < |es[1..]| ensures OnWindow(es[1..][k], w) {
            assert es[1..][k] == es[k + 1];
          }
        }
      }
      RunKeepsHooked(s1, es[1..], w);
    }
  }

  /** On a hooked state the window procedure never hands a message to a
      handler chaining to the backend's own procedure, and unhook leaves no
      window calling it. */
  lemma HookedUnhook(s: State, w: Hwnd)
    requires Hooked(s) && CleanupHitsHooked(s, [], w)
    ensures forall lock :: WndProcDispatch(s, lock) != Done(Handler(Detour))
    ensures forall v :: ProcOf(Unhook(s).windows, v) != Detour
  {
  }

  /** With the corrected cleanup, from a process where no window calls the
      backend's procedure, every run ends with the handler never chaining to
      itself, and unhook then leaves no window calling the backend's
      procedure. */
  lemma {:induction false} InstalledNeverChainsToItself(start: nat, windows: ProcTable, es: seq<Event>)
    requires forall v :: ProcOf(windows, v) != Detour
    ensures Run(Installed(start, HookedWindow, windows), es).Done? ==>
      var s' := Run(Installed(start, HookedWindow, windows), es).value.state;
      && (forall lock :: WndProcDispatch(s', lock) != Done(Handler(Detour)))
      && (forall v :: ProcOf(Unhook(s').windows, v) != Detour)
  {
    var s0 := Installed(start, HookedWindow, windows);
    RunKeepsHooked(s0, es, 0);
    if Run(s0, es).Done? {
      HookedUnhook(Run(s0, es).value.state, 0);
    }
  }

  /** As written, the same holds for hosts whose swap chains all present to
      one window. */
  lemma {:induction false} OneWindowNeverChainsToItself(start: nat, windows: ProcTable, es: seq<Event>, w: Hwnd)
    requires forall v :: ProcOf(windows, v) != Detour
    requires forall k :: 0 <= k < |es| ==> OnWindow(es[k], w)
    ensures Run(Installed(start, StoredChainWindow, windows), es).Done? ==>
      var s' := Run(Installed(start, StoredChainWindow, windows), es).value.state;
      && (forall lock :: WndProcDispatch(s', lock) != Done(Handler(Detour)))
      && (forall v :: ProcOf(Unhook(s').windows, v) != Detour)
  {
    var s0 := Installed(start, StoredChainWindow, windows);
    RunKeepsHooked(s0, es, w);
    if Run(s0, es).Done? {
      HookedUnhook(Run(s0, es).value.state, w);
    }
  }

  /** Two swap chains of one host on windows 1 and 2, whose procedures are
      11 and 22. */
  const ChainA: SwapChain := SwapChain(1, 1, 2)
  const ChainB: SwapChain := SwapChain(2, 2, 2)
  const TwoWindows: ProcTable := map[1 := Proc(11), 2 := Proc(22)]

  function PresentOn(sc: SwapChain): Event {
    PresentCall(sc, 1, 0, ScenarioDevice, Frame(0, true), 0)
  }

  const ResizeB: Event := ResizeBuffersCall(ChainB, 2, 800, 600, 28, 0, 0)

  /** Present on chain A builds a renderer hooked on window 1. */
  lemma PresentOnA(target: CleanupTarget) returns (s1: State)
    ensures Step(Installed(FenceStart, target, TwoWindows), PresentOn(ChainA)).Done?
    ensures s1 == Step(Installed(FenceStart, target, TwoWindows), PresentOn(ChainA)).value.state
    ensures s1.renderer.Some? && s1.renderer.value.wndProc == Proc(11) && s1.renderer.value.hookedWindow == 1
    ensures s1.renderLoop && s1.cleanupTarget == target
    ensures ProcOf(s1.windows, 1) == Detour && ProcOf(s1.windows, 2) == Proc(22)
  {
    var s0 := Installed(FenceStart, target, TwoWindows);
    s1 := Step(s0, PresentOn(ChainA)).value.state;
  }

  /** ResizeBuffers on chain B then drops that renderer. As written it puts
      window 1's saved procedure on window 2 and leaves window 1 calling the
      backend's procedure; corrected, it restores window 1. */
  lemma ResizeOnB(s1: State, target: CleanupTarget) returns (s2: State)
    requires s1.renderer.Some? && s1.renderer.value.wndProc == Proc(11) && s1.renderer.value.hookedWindow == 1
    requires s1.renderLoop && s1.cleanupTarget == target
    requires ProcOf(s1.windows, 1) == Detour && ProcOf(s1.windows, 2) == Proc(22)
    ensures Step(s1, ResizeB).Done? && s2 == Step(s1, ResizeB).value.state
    ensures s2.renderer.None? && s2.renderLoop && s2.cleanupTarget == target
    ensures target == StoredChainWindow ==> ProcOf(s2.windows, 1) == Detour
    ensures target == HookedWindow ==> ProcOf(s2.windows, 1) == Proc(11)
  {
    s2 := Step(s1, ResizeB).value.state;
  }

  /** The next Present on chain A builds a renderer that saves whatever
      window 1 now holds. */
  lemma PresentOnAAgain(s2: State) returns (s3: State)
    requires s2.renderer.None? && s2.renderLoop
    ensures Step(s2, PresentOn(ChainA)).Done? && s3 == Step(s2, PresentOn(ChainA)).value.state
    ensures s3.renderer.Some? && s3.renderer.value.wndProc == ProcOf(s2.windows, 1) && s3.renderLoop
  {
    s3 := Step(s2, PresentOn(ChainA)).value.state;
  }

  /** As written, a Present on chain B while the renderer hooked on window 1
      lives retargets cleanup: unhook then leaves window 1 calling the
      backend's procedure and gives window 2 window 1's procedure. */
  lemma UnhookAfterOtherChainLeavesDetour()
    ensures Run(Installed(FenceStart, StoredChainWindow, TwoWindows), [PresentOn(ChainA), PresentOn(ChainB)]).Done?
    ensures
      var s2 := Run(Installed(FenceStart, StoredChainWindow, TwoWindows), [PresentOn(ChainA), PresentOn(ChainB)]).value.state;
      && ProcOf(Unhook(s2).windows, 1) == Detour
      && ProcOf(Unhook(s2).windows, 2) == Proc(11)
  {
    var s0 := Installed(FenceStart, StoredChainWindow, TwoWindows);
    var s1 := PresentOnA(StoredChainWindow);
    var s2 := Step(s1, PresentOn(ChainB)).value.state;
    assert s2.renderer.value.swapChain == ChainB && s2.renderer.value.wndProc == Proc(11);
    assert s2.windows == s1.windows;
    var es := [PresentOn(ChainA), PresentOn(ChainB)];
    assert es[1..] == [PresentOn(ChainB)];
    RunCons(s1, es[1..]);
    RunCons(s0, es);
  }

  /** Three successful steps make a successful run of three events. */
  lemma RunThree(s0: State, es: seq<Event>, s1: State, s2: State, s3: State)
    requires |es| == 3
    requires Step(s0, es[0]).Done? && Step(s0, es[0]).value.state == s1
    requires Step(s1, es[1]).Done? && Step(s1, es[1]).value.state == s2
    requires Step(s2, es[2]).Done? && Step(s2, es[2]).value.state == s3
    ensures Run(s0, es).Done? && Run(s0, es).value.state == s3
  {
    assert es[1..][0] == es[1] && es[1..][1..] == [es[2]];
    RunCons(s2, es[1..][1..]);
    RunCons(s1, es[1..]);
    RunCons(s0, es);
  }

  /** The run of the window finding: Present on chain A, ResizeBuffers on
      chain B, Present on chain A. */
  const WindowScenario: seq<Event> := [PresentOn(ChainA), ResizeB, PresentOn(ChainA)]

  /** As written, the rebuilt renderer saves the backend's own procedure, so
      a message that gets the lock goes to a handler chaining to itself. */
  lemma ResizeOnOtherChainChainsToItself()
    ensures Run(Installed(FenceStart, StoredChainWindow, TwoWindows), WindowScenario).Done?
    ensures
      var s3 := Run(Installed(FenceStart, StoredChainWindow, TwoWindows), WindowScenario).value.state;
      && s3.renderer.Some? && s3.renderer.value.wndProc == Detour
      && WndProcDispatch(s3, true) == Done(Handler(Detour))
  {
    var s1 := PresentOnA(StoredChainWindow);
    var s2 := ResizeOnB(s1, StoredChainWindow);
    var s3 := PresentOnAAgain(s2);
    RunThree(Installed(FenceStart, StoredChainWindow, TwoWindows), WindowScenario, s1, s2, s3);
  }

  /** With the corrected cleanup the same run rebuilds a renderer that saves
      window 1's own procedure. */
  lemma ResizeOnOtherChainRestoresHooked()
    ensures Run(Installed(FenceStart, HookedWindow, TwoWindows), WindowScenario).Done?
    ensures
      var s3 := Run(Installed(FenceStart, HookedWindow, TwoWindows), WindowScenario).value.state;
      && s3.renderer.Some? && s3.renderer.value.wndProc == Proc(11)
      && WndProcDispatch(s3, true) == Done(Handler(Proc(11)))
  {
    var s1 := PresentOnA(HookedWindow);
    var s2 := ResizeOnB(s1, HookedWindow);
    var s3 := PresentOnAAgain(s2);
    RunThree(Installed(FenceStart, HookedWindow, TwoWindows), WindowScenario, s1, s2, s3);
  }

  /** `store_swap_chain` keeps the last chain given: what a later call
      without a chain returns is that chain, and storing it again changes
      nothing. */
  lemma StoreThenRead(r: Renderer, sc: SwapChain)
    ensures StoreSwapChain(StoreSwapChain(r, Some(sc)).0, None).1 == sc
    ensures StoreSwapChain(StoreSwapChain(r, Some(sc)).0, Some(sc)).0 == StoreSwapChain(r, Some(sc)).0
  {
  }

  // ---------------------------------------------------------------------------
  // Fence safety
  // ---------------------------------------------------------------------------

  /** A frame context whose GPU work is either finished (the fence has reached
      its value) or is the one signal of that value, still ahead of the GPU;
      its value is below the counter. */
  ghost predicate ContextSafe(c: FrameContext, counter: nat) {
    && c.fenceVal < counter
    && ((c.fence.pending == [] && c.fence.completed == c.fenceVal)
        || (c.fence.pending == [c.fenceVal] && c.fence.completed < c.fenceVal))
  }

  ghost predicate FencesSafe(s: State) {
    && s.fenceCounter >= FenceStart
    && (s.renderer.Some? ==>
          forall i :: 0 <= i < |s.renderer.value.frameContexts| ==>
            ContextSafe(s.renderer.value.frameContexts[i], s.fenceCounter))
  }

  /** No call resets a command allocator the GPU may still be executing. */
  ghost predicate NoBusyReset(calls: seq<Call>) {
    forall k :: 0 <= k < |calls| ==> !(calls[k].ResetAllocator? && calls[k].inUseByGpu)
  }

  lemma NoBusyResetAppend(a: seq<Call>, b: seq<Call>)
    requires NoBusyReset(a) && NoBusyReset(b)
    ensures NoBusyReset(a + b)
  {
    forall k | 0 <= k < |a + b|
      ensures !((a + b)[k].ResetAllocator? && (a + b)[k].inUseByGpu)
    {
      if k >= |a| {
        assert (a + b)[k] == b[k - |a|];
      }
    }
  }

  /** On a safe context `wait_fence` returns with nothing pending: when a
      signal is outstanding the completed value is below the context's value,
      so it waits, and the wait ends exactly at that value. */
  lemma WaitFreesSafeContext(c: FrameContext, counter: nat)
    requires ContextSafe(c, counter)
    ensures WaitFence(c).0 == c.(fence := Fence(c.fenceVal, []))
  {
    if c.fence.pending != [] {
      assert Retire(c.fence) == Fence(c.fenceVal, []);
      assert AwaitValue(Retire(c.fence), c.fenceVal) == Fence(c.fenceVal, []);
    }
  }

  /** On a safe context, `render`'s work flags its allocator reset as idle
      and leaves the context safe against the incremented counter. */
  lemma RecordFrameOnSafeContext(i: nat, fc: FrameContext, q: Handle, counter: nat, frame: Frame, debug: bool)
    requires ContextSafe(fc, counter)
    ensures NoBusyReset(RecordFrame(i, fc, q, counter, frame, debug).1)
    ensures ContextSafe(RecordFrame(i, fc, q, counter, frame, debug).0, counter + 1)
  {
    RecordFrameIdle(i, fc, q, counter, frame, debug);
    RecordFrameKeepsSafe(i, fc, q, counter, frame, debug);
  }

  lemma RecordFrameIdle(i: nat, fc: FrameContext, q: Handle, counter: nat, frame: Frame, debug: bool)
    requires ContextSafe(fc, counter)
    ensures NoBusyReset(RecordFrame(i, fc, q, counter, frame, debug).1)
  {
    WaitFreesSafeContext(fc, counter);
    var inUse := WaitFence(fc).0.fence.pending != [];
    var w := if fc.fence.completed < fc.fenceVal then [WaitForFence(i, fc.fenceVal)] else [];
    var sub := SubmitCalls(i, fc, inUse, q, counter, frame.drawDataOk, debug);
    IdleAfterWait(w, sub, i);
  }

  /** An optional wait followed by a submission whose one allocator reset,
      its first call, is flagged idle. */
  lemma IdleAfterWait(w: seq<Call>, sub: seq<Call>, i: nat)
    requires forall k :: 0 <= k < |w| ==> w[k].WaitForFence?
    requires |sub| > 0 && sub[0] == ResetAllocator(i, false)
    requires forall k :: 1 <= k < |sub| ==> !sub[k].ResetAllocator?
    ensures NoBusyReset(w + sub)
  {
    forall k | 0 <= k < |w + sub| ensures !((w + sub)[k].ResetAllocator? && (w + sub)[k].inUseByGpu) {
      if k >= |w| {
        assert (w + sub)[k] == sub[k - |w|];
      }
    }
  }

  lemma RecordFrameKeepsSafe(i: nat, fc: FrameContext, q: Handle, counter: nat, frame: Frame, debug: bool)
    requires ContextSafe(fc, counter)
    ensures ContextSafe(RecordFrame(i, fc, q, counter, frame, debug).0, counter + 1)
  {
    WaitFreesSafeContext(fc, counter);
    var c := RecordFrame(i, fc, q, counter, frame, debug).0;
    assert c.fence == Signal(Fence(fc.fenceVal, []), counter);
    assert c.fence == Fence(fc.fenceVal, [counter]);
  }

  lemma RenderKeepsFencesSafe(r: Renderer, counter: nat, sc: Option<SwapChain>, frame: Frame, loop: bool, debug: bool)
    requires counter >= FenceStart
    requires forall i :: 0 <= i < |r.frameContexts| ==> ContextSafe(r.frameContexts[i], counter)
    ensures Render(r, counter, sc, frame, loop, debug).Done? ==>
      var rd := Render(r, counter, sc, frame, loop, debug).value;
      && rd.fenceCounter >= counter
      && NoBusyReset(rd.calls)
      && forall i :: 0 <= i < |rd.renderer.frameContexts| ==> ContextSafe(rd.renderer.frameContexts[i], rd.fenceCounter)
  {
    var o := Render(r, counter, sc, frame, loop, debug);
    var i := frame.backBufferIndex;
    if o.Done? && r.commandQueue.Some? {
      RecordFrameOnSafeContext(i, r.frameContexts[i], r.commandQueue.value, counter, frame, debug);
      var pool := o.value.renderer.frameContexts;
      forall j | 0 <= j < |pool| ensures ContextSafe(pool[j], counter + 1) {
        if j != i {
          assert pool[j] == r.frameContexts[j];
        }
      }
    }
  }

  /** The calls Present makes before and after `render`'s. */
  function PresentPrefix(s: State): seq<Call> {
    if s.renderer.None? then [InitializeRenderLoop] else []
  }

  function PresentSuffix(s: State, sc: SwapChain, si: nat, f: nat): seq<Call> {
    [PresentOriginal(sc.id, si, f)] + (if s.debug then [DrainDebugMessages] else [])
  }

  /** Present's result in terms of `render` on the renderer it uses. */
  lemma PresentShape(s: State, sc: SwapChain, si: nat, f: nat, dev: Device, fr: Frame, hr: int) returns (r0: Renderer)
    requires Present(s, sc, si, f, dev, fr, hr).Done?
    ensures r0 == if s.renderer.Some? then s.renderer.value else NewRenderer(sc, dev, s.windows).0
    ensures Render(r0, s.fenceCounter, Some(sc), fr, s.renderLoop, s.debug).Done?
    ensures
      var rd := Render(r0, s.fenceCounter, Some(sc), fr, s.renderLoop, s.debug).value;
      var o := Present(s, sc, si, f, dev, fr, hr).value;
      && o.calls == PresentPrefix(s) + rd.calls + PresentSuffix(s, sc, si, f)
      && o.state.renderer == Some(rd.renderer)
      && o.state.fenceCounter == rd.fenceCounter
  {
    r0 := if s.renderer.Some? then s.renderer.value else NewRenderer(sc, dev, s.windows).0;
  }

  lemma PresentKeepsFencesSafe(s: State, sc: SwapChain, si: nat, f: nat, dev: Device, fr: Frame, hr: int)
    requires FencesSafe(s)
    ensures Present(s, sc, si, f, dev, fr, hr).Done? ==>
      && FencesSafe(Present(s, sc, si, f, dev, fr, hr).value.state)
      && NoBusyReset(Present(s, sc, si, f, dev, fr, hr).value.calls)
      && Present(s, sc, si, f, dev, fr, hr).value.state.fenceCounter >= s.fenceCounter
  {
    var o := Present(s, sc, si, f, dev, fr, hr);
    if o.Done? {
      var r0 := PresentShape(s, sc, si, f, dev, fr, hr);
      assert forall i :: 0 <= i < |r0.frameContexts| ==> ContextSafe(r0.frameContexts[i], s.fenceCounter);
      RenderKeepsFencesSafe(r0, s.fenceCounter, Some(sc), fr, s.renderLoop, s.debug);
      var rd := Render(r0, s.fenceCounter, Some(sc), fr, s.renderLoop, s.debug).value;
      NoBusyResetAppend(PresentPrefix(s), rd.calls);
      NoBusyResetAppend(PresentPrefix(s) + rd.calls, PresentSuffix(s, sc, si, f));
    }
  }

  lemma StepKeepsFencesSafe(s: State, e: Event)
    requires FencesSafe(s)
    ensures Step(s, e).Done? ==>
      && FencesSafe(Step(s, e).value.state)
      && NoBusyReset(Step(s, e).value.calls)
      && Step(s, e).value.state.fenceCounter >= s.fenceCounter
  {
    match e
    case PresentCall(sc, si, f, dev, fr, hr) =>
      PresentKeepsFencesSafe(s, sc, si, f, dev, fr, hr);
    case GpuProgress(i) =>
      if s.renderer.Some? && i < |s.renderer.value.frameContexts| {
        var pool' := GpuAdvance(s, i).renderer.value.frameContexts;
        assert ContextSafe(pool'[i], s.fenceCounter);
      }
    case _ =>
  }

  /** In every run from a fence-safe state, no command allocator is reset
      while the GPU may still be executing what was recorded with it. */
  lemma {:induction false} RunNeverResetsBusyAllocator(s: State, es: seq<Event>)
    requires FencesSafe(s)
    ensures Run(s, es).Done? ==> NoBusyReset(Run(s, es).value.calls) && FencesSafe(Run(s, es).value.state)
    decreases |es|
  {
    if es != [] && Step(s, es[0]).Done? {
      var r := Step(s, es[0]).value;
      StepKeepsFencesSafe(s, es[0]);
      RunNeverResetsBusyAllocator(r.state, es[1..]);
      if Run(s, es).Done? {
        NoBusyResetAppend(r.calls, Run(r.state, es[1..]).value.calls);
      }
    }
  }

  /** With the counter starting at `FenceStart`, every run from installation
      resets allocators only after the GPU has finished with them. */
  lemma InstalledNeverResetsBusyAllocator(target: CleanupTarget, windows: ProcTable, es: seq<Event>)
    ensures Run(Installed(FenceStart, target, windows), es).Done? ==>
      NoBusyReset(Run(Installed(FenceStart, target, windows), es).value.calls)
  {
    RunNeverResetsBusyAllocator(Installed(FenceStart, target, windows), es);
  }

  // ---------------------------------------------------------------------------
  // Fence values are globally increasing
  // ---------------------------------------------------------------------------

  /** The fence values signalled by a sequence of calls, in order. */
  function Signals(calls: seq<Call>): seq<nat>
    decreases |calls|
  {
    if calls == [] then []
    else (if calls[0].SignalFence? then [calls[0].value] else []) + Signals(calls[1..])
  }

  lemma {:induction false} SignalsAppend(a: seq<Call>, b: seq<Call>)
    ensures Signals(a + b) == Signals(a) + Signals(b)
    decreases |a|
  {
    if a == [] {
      assert a + b == b;
    } else {
      var head := if a[0].SignalFence? then [a[0].value] else [];
      assert (a + b)[0] == a[0] && (a + b)[1..] == a[1..] + b;
      assert Signals(a + b) == head + Signals(a[1..] + b);
      SignalsAppend(a[1..], b);
      assert Signals(a) == head + Signals(a[1..]);
      assert head + (Signals(a[1..]) + Signals(b)) == (head + Signals(a[1..])) + Signals(b);
    }
  }

  lemma {:induction false} SignalsNone(calls: seq<Call>)
    requires forall k :: 0 <= k < |calls| ==> !calls[k].SignalFence?
    ensures Signals(calls) == []
    decreases |calls|
  {
    if calls != [] {
      SignalsNone(calls[1..]);
    }
  }

  lemma {:induction false} SignalsLast(calls: seq<Call>)
    requires |calls| > 0 && calls[|calls| - 1].SignalFence?
    requires forall k :: 0 <= k < |calls| - 1 ==> !calls[k].SignalFence?
    ensures Signals(calls) == [calls[|calls| - 1].value]
    decreases |calls|
  {
    if |calls| > 1 {
      SignalsLast(calls[1..]);
    }
  }

  /** Strictly increasing, and every value in `[lo, hi)`. */
  ghost predicate IncreasingWithin(xs: seq<nat>, lo: nat, hi: nat) {
    && (forall k :: 0 <= k < |xs| ==> lo <= xs[k] < hi)
    && (forall k, l :: 0 <= k < l < |xs| ==> xs[k] < xs[l])
  }

  lemma IncreasingWithinAppend(xs: seq<nat>, ys: seq<nat>, lo: nat, mid: nat, hi: nat)
    requires lo <= mid <= hi
    requires IncreasingWithin(xs, lo, mid) && IncreasingWithin(ys, mid, hi)
    ensures IncreasingWithin(xs + ys, lo, hi)
  {
    forall k | 0 <= k < |xs + ys| ensures lo <= (xs + ys)[k] < hi {
      if k >= |xs| {
        assert (xs + ys)[k] == ys[k - |xs|];
      }
    }
    forall k, l | 0 <= k < l < |xs + ys| ensures (xs + ys)[k] < (xs + ys)[l] {
      if l < |xs| {
      } else if k >= |xs| {
        assert (xs + ys)[k] == ys[k - |xs|] && (xs + ys)[l] == ys[l - |xs|];
      } else {
        assert (xs + ys)[l] == ys[l - |xs|];
      }
    }
  }

  lemma RenderSignals(r: Renderer, counter: nat, sc: Option<SwapChain>, fr: Frame, loop: bool, debug: bool)
    ensures Render(r, counter, sc, fr, loop, debug).Done? ==>
      var rd := Render(r, counter, sc, fr, loop, debug).value;
      || (Signals(rd.calls) == [] && rd.fenceCounter == counter)
      || (Signals(rd.calls) == [counter] && rd.fenceCounter == counter + 1)
  {
    var o := Render(r, counter, sc, fr, loop, debug);
    if o.Done? {
      if r.commandQueue.Some? {
        var i := fr.backBufferIndex;
        var fc := r.frameContexts[i];
        RecordFrameOrder(i, fc, r.commandQueue.value, counter, fr, debug);
        FrameOrderSignals(RecordFrame(i, fc, r.commandQueue.value, counter, fr, debug).1, ResetPosition(fc), i,
                          WaitFence(fc).0.fence.pending != [], r.commandQueue.value, counter);
      } else {
        SignalsNone(o.value.calls);
      }
    }
  }

  /** A frame's calls signal exactly the new value. */
  lemma FrameOrderSignals(calls: seq<Call>, p: nat, i: nat, inUse: bool, q: Handle, value: nat)
    requires FrameOrder(calls, p, i, inUse, q, value)
    ensures Signals(calls) == [value]
  {
    assert calls[|calls| - 1] == calls[|calls| - 3..][2];
    SignalsLast(calls);
  }

  lemma SignalsBetween(pre: seq<Call>, mid: seq<Call>, post: seq<Call>)
    requires forall k :: 0 <= k < |pre| ==> !pre[k].SignalFence?
    requires forall k :: 0 <= k < |post| ==> !post[k].SignalFence?
    ensures Signals(pre + mid + post) == Signals(mid)
  {
    SignalsAppend(pre + mid, post);
    SignalsAppend(pre, mid);
    SignalsNone(pre);
    SignalsNone(post);
  }

  lemma PresentSignals(s: State, sc: SwapChain, si: nat, f: nat, dev: Device, fr: Frame, hr: int)
    ensures Present(s, sc, si, f, dev, fr, hr).Done? ==>
      var r := Present(s, sc, si, f, dev, fr, hr).value;
      || (Signals(r.calls) == [] && r.state.fenceCounter == s.fenceCounter)
      || (Signals(r.calls) == [s.fenceCounter] && r.state.fenceCounter == s.fenceCounter + 1)
  {
    var o := Present(s, sc, si, f, dev, fr, hr);
    if o.Done? {
      var r0 := PresentShape(s, sc, si, f, dev, fr, hr);
      RenderSignals(r0, s.fenceCounter, Some(sc), fr, s.renderLoop, s.debug);
      var rd := Render(r0, s.fenceCounter, Some(sc), fr, s.renderLoop, s.debug).value;
      SignalsAround(o.value.calls, PresentPrefix(s), rd.calls, PresentSuffix(s, sc, si, f),
                    s.fenceCounter, rd.fenceCounter, o.value.state.fenceCounter);
    }
  }

  /** `SignalsBetween` for a call list known only to equal calls without a
      signal around `render`'s, and a counter known only to equal
      `render`'s. */
  lemma SignalsAround(calls: seq<Call>, pre: seq<Call>, mid: seq<Call>, post: seq<Call>, c: nat, c1: nat, c2: nat)
    requires calls == pre + mid + post && c2 == c1
    requires forall k :: 0 <= k < |pre| ==> !pre[k].SignalFence?
    requires forall k :: 0 <= k < |post| ==> !post[k].SignalFence?
    requires (Signals(mid) == [] && c1 == c) || (Signals(mid) == [c] && c1 == c + 1)
    ensures (Signals(calls) == [] && c2 == c) || (Signals(calls) == [c] && c2 == c + 1)
  {
    SignalsBetween(pre, mid, post);
  }

  /** A step signals at most one fence value, the counter's current value,
      and moves the counter past it; otherwise the counter stays. */
  lemma StepSignals(s: State, e: Event)
    ensures Step(s, e).Done? ==>
      var r := Step(s, e).value;
      || (Signals(r.calls) == [] && r.state.fenceCounter == s.fenceCounter)
      || (Signals(r.calls) == [s.fenceCounter] && r.state.fenceCounter == s.fenceCounter + 1)
  {
    if Step(s, e).Done? {
      match e
      case PresentCall(sc, si, f, dev, fr, hr) =>
        PresentSignals(s, sc, si, f, dev, fr, hr);
      case _ =>
        SignalsNone(Step(s, e).value.calls);
    }
  }

  /** Every run signals strictly increasing fence values, across all frame
      contexts and across renderer rebuilds, each drawn from the counter
      between its value at the start and at the end of the run. */
  lemma {:induction false} RunSignalsIncrease(s: State, es: seq<Event>)
    ensures Run(s, es).Done? ==>
      && s.fenceCounter <= Run(s, es).value.state.fenceCounter
      && IncreasingWithin(Signals(Run(s, es).value.calls), s.fenceCounter, Run(s, es).value.state.fenceCounter)
    decreases |es|
  {
    if es != [] && Run(s, es).Done? {
      var r := Step(s, es[0]).value;
      StepSignals(s, es[0]);
      RunSignalsIncrease(r.state, es[1..]);
      var rest := Run(r.state, es[1..]).value;
      SignalsAppend(r.calls, rest.calls);
      IncreasingWithinAppend(Signals(r.calls), Signals(rest.calls), s.fenceCounter, r.state.fenceCounter, rest.state.fenceCounter);
    }
  }

  // ---------------------------------------------------------------------------
  // The first fence value (see Findings in the README)
  // ---------------------------------------------------------------------------

  /** A swap chain with two buffers on window 2, and a device. */
  const ScenarioChain: SwapChain := SwapChain(1, 2, 2)
  const ScenarioDevice: Device := Device(4096, 32)

  function PresentOnBuffer(i: nat): Event {
    PresentCall(ScenarioChain, 1, 0, ScenarioDevice, Frame(i, true), 0)
  }

  /** The first Present builds the renderer (no queue yet, so nothing is
      rendered), a DIRECT submission is captured, then frames are rendered on
      back buffers 0 and 1 while the GPU has not yet finished either; the
      fifth event renders on buffer 0 again. */
  const Scenario: seq<Event> := [
    PresentOnBuffer(0),
    ExecuteCommandListsCall(CommandQueue(7, DIRECT), 1, 0),
    PresentOnBuffer(0),
    PresentOnBuffer(1),
    PresentOnBuffer(0)
  ]

  /** Present on a renderer that already holds a queue records on the
      indexed context, advances the counter by one and changes nothing else
      in the renderer's pool. */
  lemma PresentOnQueue(s: State, sc: SwapChain, si: nat, f: nat, dev: Device, fr: Frame, hr: int)
    requires s.renderer.Some? && s.renderer.value.commandQueue.Some? && s.renderLoop
    requires fr.backBufferIndex < |s.renderer.value.frameContexts|
    ensures Present(s, sc, si, f, dev, fr, hr).Done?
    ensures
      var pool := s.renderer.value.frameContexts;
      var i := fr.backBufferIndex;
      var rec := RecordFrame(i, pool[i], s.renderer.value.commandQueue.value, s.fenceCounter, fr, s.debug);
      var o := Present(s, sc, si, f, dev, fr, hr).value;
      && o.state.renderer.Some?
      && o.state.renderer.value.frameContexts == pool[i := rec.0]
      && o.state.renderer.value.commandQueue == s.renderer.value.commandQueue
      && o.state.fenceCounter == s.fenceCounter + 1
      && o.state.renderLoop && o.state.debug == s.debug
      && o.calls == rec.1 + PresentSuffix(s, sc, si, f)
  {
    var r0 := PresentShape(s, sc, si, f, dev, fr, hr);
    var rd := Render(r0, s.fenceCounter, Some(sc), fr, s.renderLoop, s.debug).value;
    RenderOnQueue(r0, s.fenceCounter, Some(sc), fr, s.renderLoop, s.debug);
    assert PresentPrefix(s) + rd.calls == rd.calls;
  }

  /** `render` with a queue keeps the queue. */
  lemma RenderOnQueue(r: Renderer, counter: nat, sc: Option<SwapChain>, fr: Frame, loop: bool, debug: bool)
    requires Render(r, counter, sc, fr, loop, debug).Done?
    ensures Render(r, counter, sc, fr, loop, debug).value.renderer.commandQueue == r.commandQueue
  {
    var rd := Render(r, counter, sc, fr, loop, debug).value;
    assert rd.renderer.(frameContexts := r.frameContexts).commandQueue == StoreSwapChain(r, sc).0.commandQueue;
  }

  /** A run that starts with a successful step ends where the rest of the
      run, from that step's state, ends. */
  lemma RunCons(s: State, es: seq<Event>)
    requires es != [] && Step(s, es[0]).Done?
    requires Run(Step(s, es[0]).value.state, es[1..]).Done?
    ensures Run(s, es).Done?
    ensures Run(s, es).value.state == Run(Step(s, es[0]).value.state, es[1..]).value.state
  {
  }

  /** The state after the first event: a renderer over a fresh pool and no
      queue yet. */
  lemma ScenarioFirst(start: nat) returns (s1: State)
    ensures Step(Installed(start, StoredChainWindow, map[]), Scenario[0]).Done?
    ensures s1 == Step(Installed(start, StoredChainWindow, map[]), Scenario[0]).value.state
    ensures s1.renderer.Some? && s1.renderer.value.commandQueue.None?
    ensures s1.renderer.value.frameContexts == FramePool(4096, 32, 2)
    ensures s1.fenceCounter == start && s1.renderLoop && !s1.queueCaptured && !s1.debug
  {
    var s0 := Installed(start, StoredChainWindow, map[]);
    var r0 := PresentShape(s0, ScenarioChain, 1, 0, ScenarioDevice, Frame(0, true), 0);
    s1 := Step(s0, Scenario[0]).value.state;
  }

  /** A context whose fence has signalled nothing and whose value is 0, after
      one frame under counter `c`. */
  lemma FreshContextFrame(i: nat, fc: FrameContext, q: Handle, c: nat, fr: Frame, debug: bool)
    requires fc.fence == NewFence && fc.fenceVal == 0
    ensures RecordFrame(i, fc, q, c, fr, debug).0.fenceVal == c
    ensures RecordFrame(i, fc, q, c, fr, debug).0.fence == Fence(0, [c])
  {
    assert WaitFence(fc).0 == fc;
  }

  /** The capture: the fresh pool gets the DIRECT queue. */
  lemma ScenarioCapture(s1: State) returns (s2: State)
    requires s1.renderer.Some? && s1.renderer.value.commandQueue.None?
    requires !s1.queueCaptured
    ensures Step(s1, Scenario[1]).Done? && s2 == Step(s1, Scenario[1]).value.state
    ensures s2.renderer.Some? && s2.renderer.value.commandQueue == Some(7)
    ensures s2.renderer.value.frameContexts == s1.renderer.value.frameContexts
    ensures s2.fenceCounter == s1.fenceCounter && s2.renderLoop == s1.renderLoop && s2.debug == s1.debug
  {
    s2 := Step(s1, Scenario[1]).value.state;
  }

  /** The frame on buffer 0 takes the counter's value and leaves it pending. */
  lemma ScenarioFrameOnZero(s2: State) returns (s3: State)
    requires s2.renderer.Some? && s2.renderer.value.commandQueue == Some(7) && s2.renderLoop
    requires s2.renderer.value.frameContexts == FramePool(4096, 32, 2)
    ensures Step(s2, Scenario[2]).Done? && s3 == Step(s2, Scenario[2]).value.state
    ensures s3.renderer.Some? && s3.renderer.value.commandQueue == Some(7) && s3.renderLoop
    ensures s3.debug == s2.debug && s3.fenceCounter == s2.fenceCounter + 1
    ensures |s3.renderer.value.frameContexts| == 2
    ensures s3.renderer.value.frameContexts[0].fenceVal == s2.fenceCounter
    ensures s3.renderer.value.frameContexts[0].fence == Fence(0, [s2.fenceCounter])
  {
    var pool := FramePool(4096, 32, 2);
    PresentOnQueue(s2, ScenarioChain, 1, 0, ScenarioDevice, Frame(0, true), 0);
    FreshContextFrame(0, pool[0], 7, s2.fenceCounter, Frame(0, true), s2.debug);
    s3 := Step(s2, Scenario[2]).value.state;
  }

  /** The frame on buffer 1 leaves buffer 0's context alone. */
  lemma ScenarioFrameOnOne(s3: State) returns (s4: State)
    requires s3.renderer.Some? && s3.renderer.value.commandQueue == Some(7) && s3.renderLoop
    requires |s3.renderer.value.frameContexts| == 2
    ensures Step(s3, Scenario[3]).Done? && s4 == Step(s3, Scenario[3]).value.state
    ensures s4.renderer.Some? && s4.renderer.value.commandQueue == Some(7) && s4.renderLoop
    ensures s4.debug == s3.debug && s4.fenceCounter == s3.fenceCounter + 1
    ensures |s4.renderer.value.frameContexts| == 2
    ensures s4.renderer.value.frameContexts[0] == s3.renderer.value.frameContexts[0]
  {
    PresentOnQueue(s3, ScenarioChain, 1, 0, ScenarioDevice, Frame(1, true), 0);
    s4 := Step(s3, Scenario[3]).value.state;
  }

  /** The state after the first four events, from any counter start: buffer
      0's context holds the first value handed out, still pending on its
      fence, whose completed value is the new fence's 0. */
  lemma ScenarioPrefix(start: nat) returns (s4: State)
    ensures Run(Installed(start, StoredChainWindow, map[]), Scenario[..4]).Done?
    ensures s4 == Run(Installed(start, StoredChainWindow, map[]), Scenario[..4]).value.state
    ensures s4.renderer.Some? && s4.renderer.value.commandQueue == Some(7) && s4.renderLoop && !s4.debug
    ensures |s4.renderer.value.frameContexts| == 2
    ensures s4.renderer.value.frameContexts[0].fenceVal == start
    ensures s4.renderer.value.frameContexts[0].fence == Fence(0, [start])
    ensures s4.fenceCounter == start + 2
  {
    var s0 := Installed(start, StoredChainWindow, map[]);
    var s1 := ScenarioFirst(start);
    var s2 := ScenarioCapture(s1);
    var s3 := ScenarioFrameOnZero(s2);
    s4 := ScenarioFrameOnOne(s3);
    RunFour(s0, Scenario[..4], s1, s2, s3, s4);
  }

  /** Four successful steps make a successful run of four events. */
  lemma RunFour(s0: State, es: seq<Event>, s1: State, s2: State, s3: State, s4: State)
    requires |es| == 4
    requires Step(s0, es[0]).Done? && Step(s0, es[0]).value.state == s1
    requires Step(s1, es[1]).Done? && Step(s1, es[1]).value.state == s2
    requires Step(s2, es[2]).Done? && Step(s2, es[2]).value.state == s3
    requires Step(s3, es[3]).Done? && Step(s3, es[3]).value.state == s4
    ensures Run(s0, es).Done? && Run(s0, es).value.state == s4
  {
    assert es[1..][0] == es[1] && es[1..][1..][0] == es[2] && es[1..][1..][1..] == [es[3]];
    RunCons(s3, es[1..][1..][1..]);
    RunCons(s2, es[1..][1..]);
    RunCons(s1, es[1..]);
    RunCons(s0, es);
  }

  /** The fifth event, the frame on buffer 0 again, from the state the first
      four leave: it waits first when buffer 0's value is above the fence's
      completed 0, and otherwise resets the allocator at once, flagged as in
      use by the GPU. */
  lemma ScenarioReuse(s4: State, c: nat)
    requires s4.renderer.Some? && s4.renderer.value.commandQueue == Some(7) && s4.renderLoop
    requires |s4.renderer.value.frameContexts| == 2
    requires s4.renderer.value.frameContexts[0].fenceVal == c
    requires s4.renderer.value.frameContexts[0].fence == Fence(0, [c])
    ensures Step(s4, Scenario[4]).Done?
    ensures c > 0 ==> Step(s4, Scenario[4]).value.calls[0] == WaitForFence(0, c)
    ensures c == 0 ==> Step(s4, Scenario[4]).value.calls[0] == ResetAllocator(0, true)
  {
    var fc := s4.renderer.value.frameContexts[0];
    PresentOnQueue(s4, ScenarioChain, 1, 0, ScenarioDevice, Frame(0, true), 0);
    ReuseFirstCall(fc, c, 7, s4.fenceCounter, Frame(0, true), s4.debug, PresentSuffix(s4, ScenarioChain, 1, 0),
                   Step(s4, Scenario[4]).value.calls);
  }

  /** The first call of a frame on a context whose value `c` is pending over
      a completed 0, whatever follows the frame's calls. */
  lemma ReuseFirstCall(fc: FrameContext, c: nat, q: Handle, counter: nat, fr: Frame, debug: bool, rest: seq<Call>, calls: seq<Call>)
    requires fc.fenceVal == c && fc.fence == Fence(0, [c])
    requires calls == RecordFrame(0, fc, q, counter, fr, debug).1 + rest
    ensures c > 0 ==> calls[0] == WaitForFence(0, c)
    ensures c == 0 ==> calls[0] == ResetAllocator(0, true)
  {
    var rec := RecordFrame(0, fc, q, counter, fr, debug).1;
    RecordFrameOrder(0, fc, q, counter, fr, debug);
    assert calls[0] == rec[0];
    if c == 0 {
      assert WaitFence(fc).0 == fc;
    }
  }

  /** As written, the counter starts at 0, so buffer 0's first frame signals
      0 — the value a new fence has already completed. On its reuse
      `GetCompletedValue() < 0` is false, no wait happens, and the allocator
      is reset while the GPU may still be executing that frame. */
  lemma SourceFenceStartResetsBusyAllocator()
    ensures Run(Installed(SourceFenceStart, StoredChainWindow, map[]), Scenario[..4]).Done?
    ensures
      var s4 := Run(Installed(SourceFenceStart, StoredChainWindow, map[]), Scenario[..4]).value.state;
      && Step(s4, Scenario[4]).Done?
      && !NoBusyReset(Step(s4, Scenario[4]).value.calls)
  {
    var s4 := ScenarioPrefix(SourceFenceStart);
    ScenarioReuse(s4, SourceFenceStart);
    assert Step(s4, Scenario[4]).value.calls[0] == ResetAllocator(0, true);
  }

  /** With the counter starting at `FenceStart`, the same scenario waits on
      buffer 0's first value before reusing its allocator, as it should. */
  lemma FenceStartWaitsBeforeReuse()
    ensures Run(Installed(FenceStart, StoredChainWindow, map[]), Scenario[..4]).Done?
    ensures
      var s4 := Run(Installed(FenceStart, StoredChainWindow, map[]), Scenario[..4]).value.state;
      && Step(s4, Scenario[4]).Done?
      && Step(s4, Scenario[4]).value.calls[0] == WaitForFence(0, FenceStart)
      && NoBusyReset(Step(s4, Scenario[4]).value.calls)
  {
    var s4 := ScenarioPrefix(FenceStart);
    ScenarioReuse(s4, FenceStart);
    RunNeverResetsBusyAllocator(Installed(FenceStart, StoredChainWindow, map[]), Scenario[..4]);
    StepKeepsFencesSafe(s4, Scenario[4]);
  }
}

=== FILE: frame_contexts.dfy ===
/** The per-back-buffer resources of the DirectX 12 renderer: one frame
    context per swap-chain buffer, each with its own descriptor handle,
    command allocator and GPU fence, and one process-wide fence-value counter
    shared by all of them. D3D12 objects are opaque; only the integer
    bookkeeping and the GPU's progress on each fence are modelled. */
module FrameContexts {

  /** The GPU side of one `ID3D12Fence`: the last value the GPU has reached,
      and the values signalled on the queue that it has not reached yet,
      oldest first. */
  datatype Fence = Fence(completed: nat, pending: seq<nat>)

  /** `CreateFence(0, ..)`: nothing signalled, completed value 0. */
  const NewFence: Fence := Fence(0, [])

  /** `Signal(fence, v)` on a queue: the GPU will reach `v` after the work
      submitted before it. */
  function Signal(f: Fence, v: nat): (r: Fence)
    ensures r.completed == f.completed
    ensures |r.pending| == |f.pending| + 1 && r.pending[|f.pending|] == v
    ensures r.pending[..|f.pending|] == f.pending
  {
    Fence(f.completed, f.pending + [v])
  }

  /** The GPU reaching the oldest pending signal (it has finished the work
      submitted before it). */
  function Retire(f: Fence): Fence {
    if f.pending == [] then f else Fence(f.pending[0], f.pending[1..])
  }

  /** `SetEventOnCompletion(target)` followed by an infinite wait: the GPU
      retires signals in order until it reaches `target`. With nothing left
      to retire the real wait would never return; the model stops there (see
      the README's Left out). */
  function AwaitValue(f: Fence, target: nat): (r: Fence)
    decreases |f.pending|
    ensures r.completed >= target || r.pending == []
    ensures |r.pending| <= |f.pending|
    ensures r.pending == f.pending[|f.pending| - |r.pending|..]
    ensures f.completed >= target ==> r == f
  {
    if f.completed >= target || f.pending == [] then f
    else AwaitValue(Retire(f), target)
  }

  /** The wait ends at the first retired signal that reaches the target:
      the completed value is then the last signal retired, and every signal
      retired before it was below the target. Retiring nothing leaves the
      fence as it was. */
  lemma AwaitValueStops(f: Fence, target: nat)
    ensures
      var r := AwaitValue(f, target);
      var n := |f.pending| - |r.pending|;
      && (n == 0 ==> r == f)
      && (n > 0 ==> r.completed == f.pending[n - 1])
      && (forall k :: 0 <= k < n - 1 ==> f.pending[k] < target)
  {
    AwaitValueLastRetired(f, target);
    AwaitValueEarlierBelow(f, target);
  }

  /** When the wait retires something, the completed value is the last
      signal it retired. */
  lemma {:induction false} AwaitValueLastRetired(f: Fence, target: nat)
    decreases |f.pending|
    ensures |AwaitValue(f, target).pending| < |f.pending| ==>
      AwaitValue(f, target).completed == f.pending[|f.pending| - |AwaitValue(f, target).pending| - 1]
  {
    if !(f.completed >= target || f.pending == []) {
      var g := Retire(f);
      AwaitValueLastRetired(g, target);
      AwaitValueRetiresNothing(g, target);
      LastRetiredStep(f, g, AwaitValue(g, target));
      assert AwaitValue(f, target) == AwaitValue(g, target);
    }
  }

  /** A wait that retires nothing returns the fence it was given. */
  lemma AwaitValueRetiresNothing(f: Fence, target: nat)
    ensures |AwaitValue(f, target).pending| == |f.pending| ==> AwaitValue(f, target) == f
  {
    if !(f.completed >= target || f.pending == []) {
      assert |Retire(f).pending| == |f.pending| - 1;
      assert AwaitValue(f, target) == AwaitValue(Retire(f), target);
    }
  }

  /** The inductive step of `AwaitValueLastRetired`, for a wait result `r`
      from the fence `g` that retiring one signal of `f` leaves. */
  lemma LastRetiredStep(f: Fence, g: Fence, r: Fence)
    requires f.pending != [] && g == Retire(f)
    requires |r.pending| <= |g.pending|
    requires |r.pending| == |g.pending| ==> r == g
    requires |r.pending| < |g.pending| ==> r.completed == g.pending[|g.pending| - |r.pending| - 1]
    ensures r.completed == f.pending[|f.pending| - |r.pending| - 1]
  {
    assert g.completed == f.pending[0] && g.pending == f.pending[1..];
    if |r.pending| < |g.pending| {
      assert g.pending[|g.pending| - |r.pending| - 1] == f.pending[|g.pending| - |r.pending|];
    }
  }

  /** Every signal the wait retired before its last one was below the
      target. */
  lemma {:induction false} AwaitValueEarlierBelow(f: Fence, target: nat)
    decreases |f.pending|
    ensures forall k :: 0 <= k < |f.pending| - |AwaitValue(f, target).pending| - 1 ==> f.pending[k] < target
  {
    if !(f.completed >= target || f.pending == []) {
      var g := Retire(f);
      AwaitValueEarlierBelow(g, target);
      var r := AwaitValue(f, target);
      assert r == AwaitValue(g, target);
      assert g.completed == f.pending[0] && g.pending == f.pending[1..];
      forall k | 0 <= k < |f.pending| - |r.pending| - 1 ensures f.pending[k] < target {
        if k > 0 {
          assert f.pending[k] == g.pending[k - 1];
        } else {
          assert r != g;
        }
      }
    }
  }

  /** The value the process-wide fence counter starts at in the source. */
  const SourceFenceStart: nat := 0

  /** The first fence value under the corrected start (see the `Findings`
      section of the README): strictly above a new fence's completed value. */
  const FenceStart: nat := 1

  /** The command-allocator debug names, `COMMAND_ALLOCATOR_NAMES`. */
  const CommandAllocatorNames: seq<string> := [
    "hudhook Command allocator #0",
    "hudhook Command allocator #1",
    "hudhook Command allocator #2",
    "hudhook Command allocator #3",
    "hudhook Command allocator #4",
    "hudhook Command allocator #5",
    "hudhook Command allocator #6",
    "hudhook Command allocator #7"
  ]

  /** `usize::min(COMMAND_ALLOCATOR_NAMES.len() - 1, i)`: buffers past the
      table's end share its last name. */
  function AllocatorNameIndex(i: nat): (k: nat)
    ensures k < |CommandAllocatorNames|
    ensures i < |CommandAllocatorNames| ==> k == i
    ensures i >= |CommandAllocatorNames| ==> k == |CommandAllocatorNames| - 1
  {
    if |CommandAllocatorNames| - 1 < i then |CommandAllocatorNames| - 1 else i
  }

  /** One frame context. `backBuffer` is the index passed to `GetBuffer`;
      the command allocator and fence event are opaque and identified by the
      context itself. */
  datatype FrameContext = FrameContext(
    backBuffer: nat,
    descHandle: nat,
    allocatorName: string,
    fence: Fence,
    fenceVal: nat)

  /** The body of the construction closure for buffer `i`. */
  function NewFrameContext(rtvStart: nat, rtvIncrement: nat, i: nat): FrameContext {
    FrameContext(
      backBuffer := i,
      descHandle := rtvStart + i * rtvIncrement,
      allocatorName := CommandAllocatorNames[AllocatorNameIndex(i)],
      fence := NewFence,
      fenceVal := 0)
  }

  /** `(0..BufferCount).map(..).collect()`: one context per buffer. */
  function FramePool(rtvStart: nat, rtvIncrement: nat, bufferCount: nat): (pool: seq<FrameContext>)
    ensures |pool| == bufferCount
    ensures forall i :: 0 <= i < bufferCount ==>
      && pool[i].backBuffer == i
      && pool[i].descHandle == rtvStart + i * rtvIncrement
      && pool[i].allocatorName == CommandAllocatorNames[AllocatorNameIndex(i)]
      && pool[i].fence == NewFence
      && pool[i].fenceVal == 0
  {
    seq(bufferCount, i requires 0 <= i => NewFrameContext(rtvStart, rtvIncrement, i))
  }

  /** With a positive descriptor stride no two contexts share a render-target
      descriptor, so recording for one buffer never writes another's view. */
  lemma PoolHandlesDistinct(rtvStart: nat, rtvIncrement: nat, bufferCount: nat, i: nat, j: nat)
    requires rtvIncrement > 0
    requires i < j < bufferCount
    ensures FramePool(rtvStart, rtvIncrement, bufferCount)[i].descHandle
         <  FramePool(rtvStart, rtvIncrement, bufferCount)[j].descHandle
  {
    StrideMonotone(i, j, rtvIncrement);
  }

  lemma {:induction false} StrideMonotone(i: nat, j: nat, stride: nat)
    requires stride > 0 && i < j
    ensures i * stride < j * stride
    decreases j - i
  {
    assert (j - 1) * stride + stride == j * stride;
    if i < j - 1 {
      StrideMonotone(i, j - 1, stride);
    }
  }

  /** `FrameContext::incr`: `FENCE_MAX.fetch_add(1)` hands the context the
      counter's value before the increment. */
  function Incr(fc: FrameContext, counter: nat): (r: (FrameContext, nat))
    ensures r.0.fenceVal == counter && r.1 == counter + 1
    ensures r.0.fenceVal < r.1
    ensures r.0.(fenceVal := fc.fenceVal) == fc
  {
    (fc.(fenceVal := counter), counter + 1)
  }

  /** `FrameContext::wait_fence`: blocks only when the GPU's completed value
      is below the context's fence value. The boolean says whether it waited. */
  function WaitFence(fc: FrameContext): (r: (FrameContext, bool))
    ensures r.1 <==> fc.fence.completed < fc.fenceVal
    ensures !r.1 ==> r.0 == fc
    ensures r.0.(fence := fc.fence) == fc
    ensures r.0.fence.completed >= fc.fenceVal || r.0.fence.pending == []
  {
    if fc.fence.completed < fc.fenceVal then (fc.(fence := AwaitValue(fc.fence, fc.fenceVal)), true)
    else (fc, false)
  }

  /** A sequence of `incr` calls on any contexts, in order, draws values
      from the one counter: the values handed out. */
  function IncrSequence(contexts: seq<FrameContext>, counter: nat): (vals: seq<nat>)
    decreases |contexts|
  {
    if contexts == [] then []
    else
      var (fc, next) := Incr(contexts[0], counter);
      [fc.fenceVal] + IncrSequence(contexts[1..], next)
  }

  /** Successive `incr` calls, on the same or on different contexts, hand out
      strictly increasing values starting at the counter's current value. */
  lemma {:induction false} IncrSequenceIncreasing(contexts: seq<FrameContext>, counter: nat)
    ensures |IncrSequence(contexts, counter)| == |contexts|
    ensures forall k :: 0 <= k < |contexts| ==> IncrSequence(contexts, counter)[k] == counter + k
    ensures forall k, l :: 0 <= k < l < |contexts| ==>
      IncrSequence(contexts, counter)[k] < IncrSequence(contexts, counter)[l]
    decreases |contexts|
  {
    if contexts != [] {
      IncrSequenceIncreasing(contexts[1..], counter + 1);
      var vals := IncrSequence(contexts, counter);
      assert vals == [counter] + IncrSequence(contexts[1..], counter + 1);
      forall k | 0 <= k < |contexts|
        ensures vals[k] == counter + k
      {
        if k > 0 {
          assert vals[k] == IncrSequence(contexts[1..], counter + 1)[k - 1];
        }
      }
    }
  }
}

=== FILE: opengl3.dfy ===
/** The OpenGL backend: a single hook on `wglSwapBuffers` that draws the
    overlay (creating its renderer on first use), tears the renderer down
    when the viewport size or the window's client rect changes, and then
    calls the original. Each detour runs as one atomic step; GL and Win32
    calls become inputs. */
module OpenGl3 {
  import opened Base
  import opened Windowing

  /** A GDI `RECT`: the window's client area as `GetClientRect` reports it. */
  datatype Rect = Rect(left: int, top: int, right: int, bottom: int)

  /** The four integers `glGetIntegerv(GL_VIEWPORT, ..)` writes. */
  datatype Viewport = Viewport(x: int, y: int, width: int, height: int)

  /** A device context and the window `WindowFromDC` maps it to. */
  datatype Dc = Dc(id: Handle, window: Hwnd)

  /** `resolution_and_rect`: the viewport size and client rect seen by the
      first `reset` on a renderer. */
  datatype Baseline = Baseline(width: int, height: int, rect: Rect)

  /** `ImguiRenderer`, less its imgui context and GL renderer. */
  datatype Renderer = Renderer(wndProc: WndProc, gameWindow: Hwnd, baseline: Option<Baseline>)

  /** The backend's process-wide state. */
  datatype State = State(
    renderer: Option<Renderer>,   // IMGUI_RENDERER
    renderLoop: bool,             // IMGUI_RENDER_LOOP is set
    windows: ProcTable)           // the OS's window procedures

  /** Calls a transition makes, in order. */
  datatype Call =
    | InitializeRenderLoop           // `ImguiRenderLoop::initialize`
    | RenderFrame                    // `ImguiRenderer::render`: one overlay frame
    | ClearColor                     // `glClearColor(0, 0, 0, 1)` on teardown
    | SwapBuffersOriginal(dc: Handle)

  datatype Reply = Reply(state: State, calls: seq<Call>)

  /** The part of `ImguiOpenGl3Hooks::new` that touches the state: the render
      loop is stored. */
  function Install(s: State): (s': State)
    ensures s'.renderLoop
    ensures s'.(renderLoop := s.renderLoop) == s
  {
    s.(renderLoop := true)
  }

  /** `draw`: with no renderer, one is created — the render loop is
      initialised, the procedure of the DC's window is swapped for the
      backend's own and the previous one kept, and there is no baseline
      yet. Then one frame is rendered, which needs the render loop too. */
  function Draw(s: State, dc: Dc): (o: Outcome<Reply>)
    ensures o.Panicked? <==> !s.renderLoop
    ensures o.Panicked? ==> o.reason == RenderLoopMissing
    ensures o.Done? ==>
      && o.value.state.renderer.Some?
      && o.value.state.renderLoop == s.renderLoop
      && |o.value.calls| >= 1 && o.value.calls[|o.value.calls| - 1] == RenderFrame
      && (o.value.calls[0] == InitializeRenderLoop <==> s.renderer.None?)
      && multiset(o.value.calls)[InitializeRenderLoop] == (if s.renderer.None? then 1 else 0)
      && multiset(o.value.calls)[RenderFrame] == 1
    ensures o.Done? && s.renderer.Some? ==> o.value.state == s
    ensures o.Done? && s.renderer.None? ==>
      && o.value.state.renderer.value == Renderer(ProcOf(s.windows, dc.window), dc.window, None)
      && ProcOf(o.value.state.windows, dc.window) == Detour
      && (forall w :: w != dc.window ==> ProcOf(o.value.state.windows, w) == ProcOf(s.windows, w))
  {
    if !s.renderLoop then Panicked(RenderLoopMissing)
    else if s.renderer.Some? then Done(Reply(s, [RenderFrame]))
    else
      var (windows', previous) := SetWndProc(s.windows, dc.window, Detour);
      Done(Reply(
        s.(renderer := Some(Renderer(previous, dc.window, None)), windows := windows'),
        [InitializeRenderLoop, RenderFrame]))
  }

  /** The comparison in `reset`: the viewport's width or height, or the
      rect's right or bottom edge, differs from the baseline. */
  predicate GeometryChanged(b: Baseline, vp: Viewport, rect: Rect) {
    || vp.width != b.width
    || vp.height != b.height
    || rect.right != b.rect.right
    || rect.bottom != b.rect.bottom
  }

  /** `ImguiRenderer::cleanup`: puts the saved procedure back on the window
      the renderer was created for. */
  function Cleanup(r: Renderer, windows: ProcTable): (windows': ProcTable)
    ensures ProcOf(windows', r.gameWindow) == r.wndProc
    ensures forall w :: w != r.gameWindow ==> ProcOf(windows', w) == ProcOf(windows, w)
  {
    SetWndProc(windows, r.gameWindow, r.wndProc).0
  }

  /** `reset`: nothing happens without a renderer or when its lock is busy.
      Otherwise the client rect of the DC's window must be available (the
      source unwraps it); the baseline is stored if there is none, and when
      the current geometry differs from the baseline the renderer is cleaned
      up, the clear colour is set and the renderer is dropped. */
  function Reset(s: State, dc: Dc, lockAcquired: bool, vp: Viewport, rect: Option<Rect>): (o: Outcome<Reply>)
    ensures s.renderer.None? || !lockAcquired ==> o == Done(Reply(s, []))
    ensures o.Panicked? <==> s.renderer.Some? && lockAcquired && rect.None?
    ensures o.Panicked? ==> o.reason == ClientRectUnavailable
    ensures o.Done? ==> o.value.state.renderLoop == s.renderLoop
    ensures o.Done? && s.renderer.Some? && lockAcquired ==>
      var r := s.renderer.value;
      var b := if r.baseline.Some? then r.baseline.value else Baseline(vp.width, vp.height, rect.value);
      if GeometryChanged(b, vp, rect.value) then
        && o.value.state.renderer.None?
        && o.value.calls == [ClearColor]
        && ProcOf(o.value.state.windows, r.gameWindow) == r.wndProc
        && (forall w :: w != r.gameWindow ==> ProcOf(o.value.state.windows, w) == ProcOf(s.windows, w))
      else
        && o.value.state.renderer == Some(r.(baseline := Some(b)))
        && o.value.state.windows == s.windows
        && o.value.calls == []
  {
    if s.renderer.None? || !lockAcquired then Done(Reply(s, []))
    else if rect.None? then Panicked(ClientRectUnavailable)
    else
      var r := s.renderer.value;
      var b := if r.baseline.Some? then r.baseline.value else Baseline(vp.width, vp.height, rect.value);
      if GeometryChanged(b, vp, rect.value) then
        Done(Reply(s.(renderer := None, windows := Cleanup(r, s.windows)), [ClearColor]))
      else
        Done(Reply(s.(renderer := Some(r.(baseline := Some(b)))), []))
  }

  /** `imgui_opengl32_wglSwapBuffers_impl`: draw, then reset, then the
      original with the same device context. It panics exactly when the
      render loop is gone (in draw) or the client rect is unavailable to a
      reset that got the lock; a panic ends the call before the original
      runs. Otherwise exactly one frame is rendered, then the original is
      called once, last. The render loop is initialised, first and once,
      exactly when there was no renderer, and a clear, between the frame and
      the original, happens exactly when the renderer was torn down, which
      needs the lock. */
  function SwapBuffers(s: State, dc: Dc, lockAcquired: bool, vp: Viewport, rect: Option<Rect>): (o: Outcome<Reply>)
    ensures o.Panicked? <==> !s.renderLoop || (lockAcquired && rect.None?)
    ensures o.Panicked? ==> o.reason == (if s.renderLoop then ClientRectUnavailable else RenderLoopMissing)
    ensures o.Done? ==>
      var calls := o.value.calls;
      && |calls| >= (if ClearColor in calls then 3 else 2)
      && calls[|calls| - 1] == SwapBuffersOriginal(dc.id)
      && (forall k :: 0 <= k < |calls| - 1 ==> !calls[k].SwapBuffersOriginal?)
      && calls[|calls| - (if ClearColor in calls then 3 else 2)] == RenderFrame
      && multiset(calls)[RenderFrame] == 1
      && (calls[0] == InitializeRenderLoop <==> s.renderer.None?)
      && multiset(calls)[InitializeRenderLoop] == (if s.renderer.None? then 1 else 0)
      && (ClearColor in calls <==> o.value.state.renderer.None?)
      && (forall k :: 0 <= k < |calls| && calls[k] == ClearColor ==> k >= 1 && k == |calls| - 2 && calls[k - 1] == RenderFrame)
      && o.value.state.renderLoop == s.renderLoop
      && (!lockAcquired ==> o.value.state.renderer.Some?)
      && (s.renderer.Some? && o.value.state.renderer.Some? ==> o.value.state.windows == s.windows)
  {
    match Draw(s, dc)
    case Panicked(p) => Panicked(p)
    case Done(drawn) =>
      match Reset(drawn.state, dc, lockAcquired, vp, rect)
      case Panicked(p) => Panicked(p)
      case Done(reset) =>
        assert drawn.state.renderer.Some? && drawn.state.renderLoop == s.renderLoop;
        assert reset.calls == [ClearColor] <==> reset.state.renderer.None?;
        SwapCallsOrder(drawn.calls, reset.calls, dc.id);
        Done(Reply(reset.state, drawn.calls + reset.calls + [SwapBuffersOriginal(dc.id)]))
  }

  /** The order of a swap's calls, for any draw and reset calls of the
      shapes `Draw` and `Reset` produce. */
  lemma SwapCallsOrder(drawn: seq<Call>, reset: seq<Call>, dc: Handle)
    requires drawn == [RenderFrame] || drawn == [InitializeRenderLoop, RenderFrame]
    requires reset == [] || reset == [ClearColor]
    ensures
      var calls := drawn + reset + [SwapBuffersOriginal(dc)];
      && |calls| >= (if ClearColor in calls then 3 else 2)
      && calls[|calls| - 1] == SwapBuffersOriginal(dc)
      && (forall k :: 0 <= k < |calls| - 1 ==> !calls[k].SwapBuffersOriginal?)
      && calls[|calls| - (if ClearColor in calls then 3 else 2)] == RenderFrame
      && multiset(calls)[RenderFrame] == 1
      && calls[0] == drawn[0]
      && multiset(calls)[InitializeRenderLoop] == (if drawn[0] == InitializeRenderLoop then 1 else 0)
      && (ClearColor in calls <==> reset == [ClearColor])
      && (forall k :: 0 <= k < |calls| && calls[k] == ClearColor ==> k >= 1 && k == |calls| - 2 && calls[k - 1] == RenderFrame)
  {
  }

  /** `imgui_wnd_proc`: the shared three-way dispatch on the renderer's
      saved procedure. */
  function WndProcDispatch(s: State, lockAcquired: bool): (d: Outcome<Dispatch>)
    ensures s.renderer.None? ==> d == Done(DefaultProc)
    ensures s.renderer.Some? && !lockAcquired ==> d == Done(DefaultProc)
    ensures s.renderer.Some? && lockAcquired && s.renderLoop ==> d == Done(Handler(s.renderer.value.wndProc))
    ensures d.Panicked? <==> s.renderer.Some? && lockAcquired && !s.renderLoop
  {
    DispatchMessage(if s.renderer.Some? then Some(s.renderer.value.wndProc) else None, lockAcquired, s.renderLoop)
  }

  /** `unhook`: an existing renderer is taken and cleaned up, then the render
      loop is dropped. */
  function Unhook(s: State): (s': State)
    ensures s'.renderer.None? && !s'.renderLoop
    ensures s.renderer.Some? ==>
      && ProcOf(s'.windows, s.renderer.value.gameWindow) == s.renderer.value.wndProc
      && forall w :: w != s.renderer.value.gameWindow ==> ProcOf(s'.windows, w) == ProcOf(s.windows, w)
    ensures s.renderer.None? ==> s'.windows == s.windows
  {
    var windows' := if s.renderer.Some? then Cleanup(s.renderer.value, s.windows) else s.windows;
    State(None, false, windows')
  }
}

=== FILE: opengl3_proofs.dfy ===
/** Properties of the OpenGL state machine over whole runs of swaps, window
    messages and the hook lifecycle. */
module OpenGl3Proofs {
  import opened Base
  import opened Windowing
  import opened OpenGl3

  /** One step of the environment; the last three fields of a swap are what
      the GL and Win32 queries inside `reset` return on that call. */
  datatype Event =
    | SwapBuffersCall(dc: Dc, lockAcquired: bool, vp: Viewport, rect: Option<Rect>)
    | WndProcCall(lockAcquired: bool)
    | InstallCall
    | UnhookCall

  function Step(s: State, e: Event): Outcome<Reply> {
    match e
    case SwapBuffersCall(dc, lock, vp, rect) => SwapBuffers(s, dc, lock, vp, rect)
    case WndProcCall(lock) =>
      (match WndProcDispatch(s, lock)
       case Panicked(p) => Panicked(p)
       case Done(_) => Done(Reply(s, [])))
    case InstallCall => Done(Reply(Install(s), []))
    case UnhookCall => Done(Reply(Unhook(s), []))
  }

  /** The events in order; calls are concatenated and a panic ends the run. */
  function Run(s: State, es: seq<Event>): Outcome<Reply>
    decreases |es|
  {
    if es == [] then Done(Reply(s, []))
    else match Step(s, es[0])
      case Panicked(p) => Panicked(p)
      case Done(r) =>
        match Run(r.state, es[1..])
        case Panicked(p) => Panicked(p)
        case Done(rest) => Done(Reply(rest.state, r.calls + rest.calls))
  }

  // ---------------------------------------------------------------------------
  // The baseline
  // ---------------------------------------------------------------------------

  /** The first reset on a renderer stores the current geometry as its
      baseline and so never tears down. */
  lemma FirstResetKeepsRenderer(s: State, dc: Dc, vp: Viewport, rect: Rect)
    requires s.renderer.Some? && s.renderer.value.baseline.None?
    ensures Reset(s, dc, true, vp, Some(rect)).Done?
    ensures
      var o := Reset(s, dc, true, vp, Some(rect)).value;
      && o.state.renderer == Some(s.renderer.value.(baseline := Some(Baseline(vp.width, vp.height, rect))))
      && o.state.windows == s.windows
      && o.calls == []
  {
    assert !GeometryChanged(Baseline(vp.width, vp.height, rect), vp, rect);
  }

  /** A reset that kept the renderer changes nothing when repeated with the
      same geometry. */
  lemma {:induction false} ResetIdempotent(s: State, dc: Dc, vp: Viewport, rect: Rect)
    requires Reset(s, dc, true, vp, Some(rect)).Done?
    requires Reset(s, dc, true, vp, Some(rect)).value.state.renderer.Some?
    ensures
      var s1 := Reset(s, dc, true, vp, Some(rect)).value.state;
      Reset(s1, dc, true, vp, Some(rect)) == Done(Reply(s1, []))
  {
    var s1 := Reset(s, dc, true, vp, Some(rect)).value.state;
    var b := s1.renderer.value.baseline.value;
    assert !GeometryChanged(b, vp, rect);
    assert s1.renderer.value.(baseline := Some(b)) == s1.renderer.value;
  }

  /** Moving the window's client rect or the viewport origin without
      resizing never tears down: only widths, heights and the right and
      bottom edges are compared. */
  lemma LeftTopIgnored(s: State, dc: Dc, vp: Viewport, rect: Rect, x: int, y: int, left: int, top: int)
    requires s.renderer.Some? && s.renderer.value.baseline.Some?
    ensures
      var o := Reset(s, dc, true, vp, Some(rect));
      var o' := Reset(s, dc, true, vp.(x := x, y := y), Some(rect.(left := left, top := top)));
      o.Done? && o'.Done? && o == o'
  {
  }

  // ---------------------------------------------------------------------------
  // The window procedure
  // ---------------------------------------------------------------------------

  /** The backend's procedure is installed on exactly one window, the live
      renderer's game window; a renderer exists only with the render loop,
      and the procedure it saved is never the backend's own (so cleanup
      never leaves the detour calling itself). */
  ghost predicate Hooked(s: State) {
    && (forall w :: ProcOf(s.windows, w) == Detour ==> s.renderer.Some? && w == s.renderer.value.gameWindow)
    && (s.renderer.Some? ==>
          && s.renderLoop
          && s.renderer.value.wndProc != Detour
          && ProcOf(s.windows, s.renderer.value.gameWindow) == Detour)
  }

  lemma DrawKeepsHooked(s: State, dc: Dc)
    requires Hooked(s)
    ensures Draw(s, dc).Done? ==> Hooked(Draw(s, dc).value.state)
  {
    if Draw(s, dc).Done? && s.renderer.None? {
      var s' := Draw(s, dc).value.state;
      assert ProcOf(s.windows, dc.window) != Detour;
      forall w | w != dc.window
        ensures ProcOf(s'.windows, w) != Detour
      {
        assert ProcOf(s'.windows, w) == ProcOf(s.windows, w);
      }
    }
  }

  lemma ResetKeepsHooked(s: State, dc: Dc, lock: bool, vp: Viewport, rect: Option<Rect>)
    requires Hooked(s)
    ensures Reset(s, dc, lock, vp, rect).Done? ==> Hooked(Reset(s, dc, lock, vp, rect).value.state)
  {
    var o := Reset(s, dc, lock, vp, rect);
    if o.Done? && s.renderer.Some? && o.value.state.renderer.None? {
      var r := s.renderer.value;
      forall w | w != r.gameWindow
        ensures ProcOf(o.value.state.windows, w) != Detour
      {
        assert ProcOf(o.value.state.windows, w) == ProcOf(s.windows, w);
      }
    }
  }

  lemma UnhookKeepsHooked(s: State)
    requires Hooked(s)
    ensures Hooked(Unhook(s))
    ensures forall w :: ProcOf(Unhook(s).windows, w) != Detour
  {
    if s.renderer.Some? {
      forall w | w != s.renderer.value.gameWindow
        ensures ProcOf(Unhook(s).windows, w) != Detour
      {
        assert ProcOf(Unhook(s).windows, w) == ProcOf(s.windows, w);
      }
    }
  }

  lemma StepKeepsHooked(s: State, e: Event)
    requires Hooked(s)
    ensures Step(s, e).Done? ==> Hooked(Step(s, e).value.state)
  {
    match e
    case SwapBuffersCall(dc, lock, vp, rect) =>
      DrawKeepsHooked(s, dc);
      if Draw(s, dc).Done? {
        ResetKeepsHooked(Draw(s, dc).value.state, dc, lock, vp, rect);
      }
    case UnhookCall =>
      UnhookKeepsHooked(s);
    case _ =>
  }

  lemma {:induction false} RunKeepsHooked(s: State, es: seq<Event>)
    requires Hooked(s)
    ensures Run(s, es).Done? ==> Hooked(Run(s, es).value.state)
    decreases |es|
  {
    if es != [] {
      StepKeepsHooked(s, es[0]);
      if Step(s, es[0]).Done? {
        RunKeepsHooked(Step(s, es[0]).value.state, es[1..]);
      }
    }
  }

  /** From a process whose windows carry no trace of the backend, any run
      followed by `unhook` leaves no window calling the backend's procedure. */
  lemma UnhookLeavesNoDetour(s: State, es: seq<Event>)
    requires s.renderer.None?
    requires forall w :: ProcOf(s.windows, w) != Detour
    requires Run(s, es).Done?
    ensures forall w :: ProcOf(Unhook(Run(s, es).value.state).windows, w) != Detour
  {
    RunKeepsHooked(s, es);
    UnhookKeepsHooked(Run(s, es).value.state);
  }

  /** The first swap creates the renderer on the DC's window and keeps it; a
      later swap whose geometry differs from what the first one saw tears it
      down, and every window's procedure is then what it was before the
      first swap. */
  lemma CreateThenResizeRestoresWindows(s: State, dc: Dc, vp1: Viewport, rect1: Rect, vp2: Viewport, rect2: Rect)
    requires s.renderer.None? && s.renderLoop
    requires GeometryChanged(Baseline(vp1.width, vp1.height, rect1), vp2, rect2)
    ensures SwapBuffers(s, dc, true, vp1, Some(rect1)).Done?
    ensures
      var o1 := SwapBuffers(s, dc, true, vp1, Some(rect1)).value;
      && o1.calls == [InitializeRenderLoop, RenderFrame, SwapBuffersOriginal(dc.id)]
      && o1.state.renderer.Some?
      && SwapBuffers(o1.state, dc, true, vp2, Some(rect2)).Done?
      && var o2 := SwapBuffers(o1.state, dc, true, vp2, Some(rect2)).value;
      && o2.calls == [RenderFrame, ClearColor, SwapBuffersOriginal(dc.id)]
      && o2.state.renderer.None?
      && forall w :: ProcOf(o2.state.windows, w) == ProcOf(s.windows, w)
  {
    var drawn := Draw(s, dc).value;
    FirstResetKeepsRenderer(drawn.state, dc, vp1, rect1);
    var o1 := SwapBuffers(s, dc, true, vp1, Some(rect1)).value;
    assert o1.state.renderer.value.baseline == Some(Baseline(vp1.width, vp1.height, rect1));
    assert o1.state.renderer.value.gameWindow == dc.window;
    assert o1.state.renderer.value.wndProc == ProcOf(s.windows, dc.window);
  }
}

=== FILE: windowing.dfy ===
/** The one piece of Win32 state both backends change: the window procedure
    stored in a window's GWLP_WNDPROC slot, and the three-way dispatch of the
    backends' replacement window procedure. */
module Windowing {
  import opened Base

  type Hwnd = nat

  /** A window procedure: the backend's own `imgui_wnd_proc`, or any other
      procedure identified by its address (address 0 is the null procedure). */
  datatype WndProc = Detour | Proc(addr: nat)

  /** The GWLP_WNDPROC slot of every window. A window without an entry reads
      as the null procedure, which is what `SetWindowLongPtrA` returns on failure. */
  type ProcTable = map<Hwnd, WndProc>

  function ProcOf(t: ProcTable, w: Hwnd): WndProc {
    if w in t then t[w] else Proc(0)
  }

  /** `SetWindowLongPtrA(w, GWLP_WNDPROC, p)`: installs `p` in `w`'s slot and
      returns the procedure that was there before. */
  function SetWndProc(t: ProcTable, w: Hwnd, p: WndProc): (r: (ProcTable, WndProc))
    ensures ProcOf(r.0, w) == p
    ensures r.1 == ProcOf(t, w)
    ensures forall v :: v != w ==> ProcOf(r.0, v) == ProcOf(t, v)
  {
    (t[w := p], ProcOf(t, w))
  }

  /** Putting back the procedure that a swap returned undoes the swap: every
      window reads its old procedure again, and when the window had an entry
      the table is exactly the old one. */
  lemma SwapThenRestore(t: ProcTable, w: Hwnd, p: WndProc)
    ensures forall v :: ProcOf(SetWndProc(SetWndProc(t, w, p).0, w, SetWndProc(t, w, p).1).0, v) == ProcOf(t, v)
    ensures w in t ==> SetWndProc(SetWndProc(t, w, p).0, w, SetWndProc(t, w, p).1).0 == t
  {
    var t' := SetWndProc(SetWndProc(t, w, p).0, w, SetWndProc(t, w, p).1).0;
    if w in t {
      assert t'.Keys == t.Keys;
      assert forall v | v in t :: t'[v] == t[v];
    }
  }

  /** Where the replacement window procedure sends a message. */
  datatype Dispatch =
    | DefaultProc                    // `DefWindowProcW`
    | Handler(saved: WndProc)        // the shared imgui handler, chaining to `saved`

  /** The three-way match of both backends' `imgui_wnd_proc`: no renderer, or
      a renderer whose lock is busy, falls back to the default procedure;
      otherwise the handler runs with the renderer's saved procedure, which
      needs the render loop (`IMGUI_RENDER_LOOP.get().unwrap()`). */
  function DispatchMessage(saved: Option<WndProc>, lockAcquired: bool, renderLoop: bool): (d: Outcome<Dispatch>)
    ensures saved.None? ==> d == Done(DefaultProc)
    ensures saved.Some? && !lockAcquired ==> d == Done(DefaultProc)
    ensures d.Done? && d.value.Handler? <==> saved.Some? && lockAcquired && renderLoop
    ensures d.Done? && d.value.Handler? ==> d.value.saved == saved.value
    ensures d.Panicked? <==> saved.Some? && lockAcquired && !renderLoop
  {
    match saved
    case None => Done(DefaultProc)
    case Some(p) =>
      if !lockAcquired then Done(DefaultProc)
      else if renderLoop then Done(Handler(p))
      else Panicked(RenderLoopMissing)
  }
}
